=== FILE: README.md ===
# Persistent memory leak detector — Dafny model

This project models the core of a heap-allocation tracer. A shared object
(`memory_hook.c`) is preloaded into a program. It interposes on `malloc` and
`free` and records every traced allocation as a row of the `allocations`
table in `memory_leak.db`. A matching `free` marks that row as freed. An
offline analyzer (`analyze_leaks.py`) queries the table for leaks. A demo
driver (`memory_server.c`) allocates and frees blocks at random, keeping its
own `ptrs`/`sizes` bookkeeping.

The model works in these terms:

- The table is a sequence of `Ledger.Record` rows in insertion order.
- Addresses are naturals, with 0 standing for NULL.
- Time is a clock reading that never runs backwards.
- The shim's globals are `Hook.Shim`: the table, whether `hook_db` is open, `in_hook`, and `initialized`.
- `malloc` and `free` are pure transitions of that state.
- The real allocator is an input. `Hook.Malloc` receives the pointer `real_malloc` returned. `Hook.Free` reports the pointer it hands to `real_free`.
- Whole runs of host calls (`HookRuns.Run`) carry the invariants:
  - `freed` holds exactly when `freed_timestamp` is present;
  - a row is never freed before it was allocated;
  - ids grow;
  - `in_hook` is clear between calls;
  - at most one row per address is live.
- The analyzer's queries are pure functions over a snapshot of the database. A failed connection is `None`.
- The driver's arrays are sequences with an `active` count. The append is the function `Server.Append`, and the guarded store is the method `Server.RecordAlloc`. The swap-remove is the method `Server.ReleaseSlot`, with lemma `Server.SwapRemoveMultiset` for the multiset of `(ptr, size)` pairs it keeps.

Modules: `Wrappers` (option type), `Ledger` (rows and the two SQL statements
of the tracer), `Hook` (the interposed entry points, `init_db_once`,
`cleanup_hook`), `HookRuns` (runs and their invariants), `Ranking` (stable
descending sort and top-k), `Analyzer` (analyze_leaks.py), `Server`
(memory_server.c).

The model follows the code where a reader might expect otherwise:

- The `UPDATE` in `free` marks every live row with the address, not only the most recent one. Under the single-live-row invariant the two agree. `HookRuns.EarlierRunLeakClearedByReuse` shows where they do not.
- The `initialized` flag is a plain `int`, not an atomic once-flag.
- `free` never runs `init_db_once`.

## Model

| member | source | states |
|---|---|---|
| Ledger.InsertAppends | memory_hook.c:82-91 | the INSERT appends one row carrying the pointer, the `int` size, the pid and the current time, with `freed` clear and no `freed_timestamp`; its id exceeds every existing id and no earlier row changes |
| Ledger.MarkFreed | memory_hook.c:117-118 | the UPDATE sets `freed` and `freed_timestamp = now` on exactly the rows whose address matches and that are live; every other row is unchanged and none moves |
| Ledger.MarkFreedClearsAddress | memory_hook.c:117-118 | after the UPDATE no live row with the freed address remains |
| Ledger.InsertPreservesWellFormed | memory_hook.c:82-83 | an INSERT at a time no earlier than the table's keeps `freed` iff `freed_timestamp`, free-after-alloc times, and increasing ids |
| Ledger.MarkFreedPreservesWellFormed | memory_hook.c:117-118 | the UPDATE, run no earlier than any recorded time, keeps the same shape |
| Ledger.InsertPreservesAtMostOneLive | memory_hook.c:82-83 | appending a live row at an address with no live row keeps at most one live row per address |
| Ledger.MarkFreedPreservesAtMostOneLive | memory_hook.c:117-118 | the UPDATE keeps at most one live row per address |
| Hook.CInt | memory_hook.c:89 | `(int)size` lies in the 32-bit range, agrees with `size` modulo 2^32, and equals `size` for sizes below 2^31 |
| Hook.InitDbOnce | memory_hook.c:24-41 | a second call changes nothing; a first call exits the process iff symbol resolution fails, otherwise sets `initialized` and leaves `hook_db` open iff the open succeeded; the table and `in_hook` are untouched |
| Hook.InitDbOnceIdempotent | memory_hook.c:25-26 | calling `init_db_once` again after it returned gives the same state |
| Hook.Malloc | memory_hook.c:63-100 | inside the hook the call returns `real_malloc`'s pointer and changes nothing; otherwise the returned pointer is always `real_malloc`'s, `in_hook` ends clear, the process exits only on a failed first-time resolution, and one live row for the pointer is appended iff the store is open and the pointer non-NULL, with every other outcome leaving the table alone |
| Hook.Free | memory_hook.c:101-133 | `real_free` always gets the pointer; inside the hook nothing else happens; otherwise `in_hook` ends clear, `hook_db` and `initialized` are kept, and the pointer's live rows are marked freed at `now` exactly when the store is open and the pointer non-NULL, the table being unchanged otherwise |
| Hook.Cleanup | memory_hook.c:136-142 | the destructor leaves `hook_db` closed and the table, `in_hook` and `initialized` unchanged |
| HookRuns.MallocKeepsQuiescent | memory_hook.c:63-100 | a traced `malloc` keeps the table well formed at the new time and leaves `in_hook` clear |
| HookRuns.FreeKeepsQuiescent | memory_hook.c:101-133 | a traced `free` keeps the table well formed at the new time and leaves `in_hook` clear |
| HookRuns.RunKeepsQuiescent | memory_hook.c:77-126 | on every run with a monotone clock, every row keeps `freed` iff `freed_timestamp`, is freed no earlier than allocated, ids grow, and `in_hook` is clear after each call |
| HookRuns.MallocKeepsDiscipline | memory_hook.c:77-93 | a traced `malloc` of an address the allocator does not hold keeps at most one live row per address and every live address allocated |
| HookRuns.FreeKeepsDiscipline | memory_hook.c:112-126 | a traced `free` of any pointer keeps that discipline with the pointer removed from the heap. This includes NULL and blocks the traced `malloc` never returned, such as blocks from before initialisation or from `calloc`, whose UPDATE matches no live row |
| HookRuns.RunKeepsAtMostOneLive | memory_hook.c:77-126 | every run from a table with no live rows, under an allocator that never returns a held address, ends with at most one live row per address |
| HookRuns.StartMeetsDiscipline | memory_hook.c:13-16 | a freshly loaded shim over a table without live rows meets the address discipline |
| HookRuns.MallocLeavesOneLiveRow | memory_hook.c:77-93 | after a recorded allocation of an address with no live row, exactly one live row carries that address: the new one |
| HookRuns.AfterTeardownNothingRecorded | memory_hook.c:136-142 | once `init_db_once` has run and the destructor has closed the store, no later `malloc` or `free` changes the table or ends the process (had the destructor run before the first `malloc`, that `malloc` would still run `init_db_once` and reopen the store) |
| HookRuns.AddressReuseMakesTwoRows | memory_hook.c:82-118 | `alloc p; free p; alloc p` with the store open appends two rows for `p`, the first freed at the free's time, the second live, with growing ids and earlier rows untouched |
| HookRuns.EarlierRunLeakBreaksOneLive | memory_hook.c:82-91 | a process started over a table holding a live row from an earlier run, handed that row's address by its first traced `malloc`, ends that call with two live rows for the address |
| HookRuns.EarlierRunLeakClearedByReuse | memory_hook.c:117-118 | a row left live by an earlier process is marked freed when a later process frees the same address, whatever its `process_id` |
| Ranking.SortDesc | analyze_leaks.py:66-70 | the result is a permutation of the input with non-increasing keys |
| Ranking.TopK | analyze_leaks.py:138 | the first `k` by key: `min(k, n)` entries, non-increasing, drawn from the input, and no omitted entry has a larger key than a kept one |
| Analyzer.LiveRows | analyze_leaks.py:26 | every listed row is the projection of a live row, and every live row's projection is listed |
| Analyzer.LiveIndices | analyze_leaks.py:26 | the positions of the rows with `freed = 0`, strictly increasing, each one live, none left out |
| Analyzer.LivePositionsUnique | analyze_leaks.py:26 | only one increasing list holds exactly the live positions, so the filter below is determined |
| Analyzer.LiveRowsFilter | analyze_leaks.py:26 | the listing has one entry per live row, in table order: entry `k` is the projection of the `k`-th live row, so duplicates are kept as often as they occur |
| Analyzer.CurrentLeaks | analyze_leaks.py:19-29 | `[]` when the connection failed; otherwise only projections of live rows, and every live row's projection |
| Analyzer.CurrentLeaksAreFilter | analyze_leaks.py:19-29 | with a connection, the result lists the live rows one for one, in table order, projected to address, size and timestamp |
| Analyzer.CountsAgreeWithRows | analyze_leaks.py:38 | `COUNT(*)` over live rows equals the number of listed leaks, and the byte total equals the sum of their sizes |
| Analyzer.LeakStatistics | analyze_leaks.py:31-45 | `None` iff the connection failed; `total_leaks` is the number of current leaks; `total_bytes` is NULL iff there are none and otherwise their summed size |
| Analyzer.NoLeaksGiveNullBytes | analyze_leaks.py:38-45 | a table with no live rows yields `total_leaks = 0` and `total_bytes = None`, and the summary carries that `None` as its leaked memory |
| Analyzer.LeakTotals | analyze_leaks.py:42-45 | with the empty sum read as 0, `total_bytes` is the summed size of the current leaks for every table |
| Analyzer.LeakHistory | analyze_leaks.py:47-57 | `[]` without a connection; otherwise the `min(10, n)` newest reports, newest first, drawn from `leak_reports`, none omitted newer than one kept |
| Analyzer.CompareExecutions | analyze_leaks.py:59-82 | nothing without a connection or with fewer than two reports; otherwise the two newest reports, distinct rows of the table, with the leak and byte differences latest minus previous |
| Analyzer.HeadsAreNewest | analyze_leaks.py:78-79 | the first two reports of the date-descending order are the two newest |
| Analyzer.ComparisonHeadsHistory | analyze_leaks.py:54-79 | the comparison's latest and previous reports are the first two lines of the history |
| Analyzer.TopLeaks | analyze_leaks.py:138 | at most five leaks, largest first, drawn from the list, no omitted leak larger than a kept one |
| Analyzer.PrintSummary | analyze_leaks.py:110-142 | the statistics exist iff the connection did; they give as many leaks as `get_current_leaks` lists, and bytes that are `None` iff there are none and otherwise their summed size; the history is `get_leak_history`'s result; the top list is the `min(5, n)` largest current leaks, largest first, drawn from `get_current_leaks`, with no omitted leak larger than a kept one, empty iff there are no current leaks, and only live rows |
| Analyzer.MarkFreedRemovesLeaksAt | analyze_leaks.py:38 | the tracer's UPDATE lowers the leak count and byte total by exactly the live rows at the freed address |
| Analyzer.FreeOfLeakRemovesOne | memory_hook.c:117-118 | with at most one live row per address, freeing a leaked block lowers the leak count by one and the bytes by its size |
| Analyzer.AppendAddsOne | memory_hook.c:82-83 | a recorded allocation raises the leak count by one and the bytes by its size |
| Server.RandomSize | memory_server.c:28-30 | every size drawn lies between 64 and 2048 bytes |
| Server.RandomSizeCoversRange | memory_server.c:28-30 | every size from 64 to 2048 is drawn by some `rand()` value |
| Server.NumOps | memory_server.c:49 | every cycle runs between 3 and 7 operations |
| Server.NumOpsCoversRange | memory_server.c:49 | every count from 3 to 7 occurs |
| Server.Initial | memory_server.c:10-12 | the static arrays start with no slot in use |
| Server.Append | memory_server.c:57-59 | storing into slot `active_allocs` (which must exist) puts the pair there, grows the count by one, keeps earlier slots, adds exactly that pair to the tracked multiset, and keeps tracked pointers distinct when the new one is fresh |
| Server.AllocAsWritten | memory_server.c:56-59 | the unguarded store writes out of bounds iff the result is non-NULL and all `MAX_PTRS` slots are in use; otherwise it adds the pair exactly when non-NULL |
| Server.AllocAllFills | memory_server.c:56-59 | each non-NULL allocation that fits takes exactly one more slot |
| Server.ThousandAllocationsOverflow | memory_server.c:57 | after `MAX_PTRS` non-NULL allocations from the initial arrays, the next non-NULL allocation writes past the end |
| Server.RecordAlloc | memory_server.c:56-59 | with the store guarded by `active_allocs < MAX_PTRS`, a non-NULL result is tracked iff a slot is left, adding exactly that pair; otherwise nothing changes |
| Server.SwapRemoveMultiset | memory_server.c:70-72 | moving the last entry into slot `idx` and dropping the last removes exactly one copy of the entry at `idx` |
| Server.SwapRemoveKeepsDistinct | memory_server.c:70-72 | swap-remove keeps tracked pointers distinct and no longer holds the removed one |
| Server.ReleaseSlot | memory_server.c:63-73 | the pointer in slot `rand() % active_allocs` is freed; the count drops by one; the pair multiset loses exactly that pair; the last pair lands in the slot; every other slot keeps its pair |
| Server.AllocOp | memory_server.c:53-62 | allocates `random_size()` bytes and stores the result in slot `active_allocs` iff it is non-NULL and a slot is left, keeping every earlier slot, and changes nothing otherwise |
| Server.FreeOp | memory_server.c:63-73 | frees the pair in slot `rand() % active_allocs`, moves the last pair into that slot, keeps every other slot, and drops the count by one |
| Server.Operation | memory_server.c:51-77 | action 0 allocates `random_size()` bytes and stores the result in slot `active_allocs` iff it is non-NULL and a slot is left, keeping the earlier slots and changing nothing otherwise; action 1 with tracked blocks frees the pair in slot `rand() % active_allocs` and swap-removes it; otherwise nothing changes; tracked pairs are conserved against what was stored and released |
| Server.Cycle | memory_server.c:49-78 | a cycle runs 3 to 7 operations, operation `k` taking the `k`-th intermediate arrays to the next by the drawn allocation, free or leak branch (`Server.Step`), with the slot layout after each store and swap-remove fixed, and conserves pairs: final tracked plus released equals initial tracked plus stored |

## Left out

- Symbol lookup in `malloc`/`free` (memory_hook.c:64-65, 102-103) is assumed to succeed. A NULL `real_malloc` would crash the process, and that is a loader matter. Failed resolution inside `init_db_once` is modelled, as the process exiting.
- Hook.Cleanup: the destructor is one atomic step in the model. In the code, `sqlite3_close(hook_db)` (memory_hook.c:139) runs with `in_hook` clear and `hook_db` still set until line 140. Any `free` SQLite makes while closing therefore re-enters the interposed `free` and may run the UPDATE on the closing connection. It would mark freed any live row at an address SQLite frees. These re-entrant frees are not modelled.
- The `safe_log` diagnostics written to stderr are not modelled, since they are output only.
- SQLite internals are not modelled. The model assumes the following always succeed:
  - `sqlite3_prepare_v2` and `sqlite3_step`;
  - the `CREATE TABLE IF NOT EXISTS`.
  A failing prepare skips the write, the same as a closed store. Persistence across runs appears only as the table a process starts with.
- The mutex, the thread-locality of `in_hook` and the unsynchronised `initialized` flag are not modelled: the model is single-threaded. Calls made while `in_hook` is set are modelled as calls on a state whose flag is set.
- The `%p` rendering of addresses is taken to be injective, so addresses are compared as numbers.
- `datetime('now')` is modelled as a monotone natural clock.
- `realloc`, `calloc` and the rest of the allocator family are not intercepted by the shim, so the model leaves them out too.
- Hook.CInt: the C standard leaves an out-of-range conversion to `int` implementation-defined. The model uses the two's-complement wrap that GCC and Clang document.
- HookRuns.RunKeepsAtMostOneLive rests on two assumptions:
  - the run starts from a table with no live rows;
  - the allocator never returns an address still held.
  A live row left by an earlier run breaks the invariant as soon as the allocator hands out its address again, as `HookRuns.EarlierRunLeakBreaksOneLive` shows.
- Analyzer.CurrentLeaks lists rows in table order, and the ranking breaks date ties by input order. SQL leaves both orders unspecified.
- Analyzer.ComparisonHeadsHistory relies on that fixed tie order. In SQL the two queries are separate statements, so reports with equal `report_date` may come back in different orders; only the dates of the two heads are certain to agree.
- Report dates are naturals in the model. No file in the modelled code creates or fills `leak_reports`; the model assumes `report_date` holds ISO 8601 text, which sorts the same way as the dates.
- `compare_executions` prints the comparison and returns `None` in both branches. The model returns the computed comparison instead of the printed text.
- Analyzer.CurrentLeaks: a database without an `allocations` table is not modelled. When no traced process has run, `sqlite3.connect` (analyze_leaks.py:12) creates an empty file, and the first SELECT raises an uncaught `OperationalError`. The model takes the table as given, and an empty table answers `[]` and `Statistics(0, None)`.
- Analyzer.PrintSummary: `print_summary` opens a separate connection for each of its three queries (analyze_leaks.py:112, 113 and 135). The model evaluates all three on one snapshot `db`. That the statistics count what `get_current_leaks` lists, and that the top list is empty iff there are no leaks, holds only for that snapshot; a tracer committing between the queries can break both.
- A missing `leak_reports` table makes the queries raise an exception. This is not modelled: the table is taken as input.
- Not modelled, because they are float arithmetic or output: the average leak size (analyze_leaks.py:125), `export_report`'s JSON file, the command-line dispatch, and live_graph.py.
- The driver's `rand()`, `srand`, `signal`, `sleep`, `printf` and `get_timestamp` are not modelled. Random values are inputs within their ranges.
- Server.Operation: the alloc branch stores through the guarded `Server.RecordAlloc`, the corrected half of the second finding. With all `MAX_PTRS` slots in use, a non-NULL block goes untracked, whereas memory_server.c:57-59 writes past `ptrs` and `sizes`. The as-written store is `Server.AllocAsWritten`.
- Server.Cycle: it inherits that guarded store from `Server.Operation`, so it models the corrected driver, not lines 49-78 as written, at the `MAX_PTRS` boundary.
- Only one cycle of the driver's endless `while (running)` loop is modelled.
- The `if (p)` test in the driver's free branch never fails, because only non-NULL pointers are stored. The model asserts that this case cannot happen.

## Findings

| source | as written | input that shows it | evidently intended | confidence | as-written member | corrected member |
|---|---|---|---|---|---|---|
| analyze_leaks.py:38-45 | `SUM(size)` over zero live rows is NULL, so `total_bytes` is `None` and the summary prints "None bytes" | a database in which every allocation was freed | `total_bytes` is 0, as the `IFNULL(SUM(size),0)` of live_graph.py:15 computes | medium, not executed | Analyzer.NoLeaksGiveNullBytes | Analyzer.LeakTotals |
| memory_server.c:57 | stores into `ptrs[active_allocs]` and `sizes[active_allocs]` without checking against `MAX_PTRS` | 1000 non-NULL allocations with no free in between, then one more | skip the store once all `MAX_PTRS` slots are in use | high, not executed | Server.ThousandAllocationsOverflow | Server.RecordAlloc |

=== FILE: analyze_leaks.dfy ===
/**
 * The offline analyzer of analyze_leaks.py as pure queries over a snapshot
 * of memory_leak.db: the live rows of `allocations`, their count and byte
 * total, the newest rows of `leak_reports`, the comparison of the two newest
 * reports, and the largest leaks. A connection that could not be made is
 * `None`.
 */
module Analyzer {
  import opened Wrappers
  import opened Ledger
  import opened Ranking

  /** One row of `leak_reports`: `report_date`, `total_leaks`, `total_leaked_bytes`. */
  datatype Report = Report(date: nat, totalLeaks: int, totalLeakedBytes: int)

  /** The two tables the analyzer reads. */
  datatype Database = Database(allocations: Table, reports: seq<Report>)

  /** A row of `SELECT address, size, timestamp FROM allocations WHERE freed = 0`. */
  datatype LeakRow = LeakRow(address: nat, size: int, timestamp: nat)

  function Project(r: Record): LeakRow {
    LeakRow(r.address, r.size, r.timestamp)
  }

  function ReportDate(r: Report): int {
    r.date
  }

  function LeakSize(l: LeakRow): int {
    l.size
  }

  /** `row` is the projection of some live row of `t`. */
  predicate IsLeakOf(t: Table, row: LeakRow) {
    exists i :: 0 <= i < |t| && IsLive(t[i]) && row == Project(t[i])
  }

  /** Every entry of `rows` is the projection of some live row of `t`. */
  predicate OnlyLive(t: Table, rows: seq<LeakRow>) {
    forall k :: 0 <= k < |rows| ==> IsLeakOf(t, rows[k])
  }

  /** The projection of every live row of `t` appears in `rows`. */
  predicate EveryLive(t: Table, rows: seq<LeakRow>) {
    forall i :: 0 <= i < |t| && IsLive(t[i]) ==> Project(t[i]) in rows
  }

  /** `ix` lists, in increasing order, exactly the positions of the live rows of `t`. */
  predicate LivePositions(t: Table, ix: seq<nat>) {
    && (forall k :: 0 <= k < |ix| ==> ix[k] < |t| && IsLive(t[ix[k]]))
    && (forall k, l :: 0 <= k < l < |ix| ==> ix[k] < ix[l])
    && (forall i :: 0 <= i < |t| && IsLive(t[i]) ==> i in ix)
  }

  /** `rows` is the filter of `t` by liveness: entry `k` is the projection of the row at the `k`-th live position. */
  predicate FilteredBy(t: Table, rows: seq<LeakRow>, ix: seq<nat>) {
    && LivePositions(t, ix)
    && |rows| == |ix|
    && forall k :: 0 <= k < |rows| ==> rows[k] == Project(t[ix[k]])
  }

  /** The positions of the live rows of `t`, in table order. */
  function LiveIndices(t: Table): (ix: seq<nat>)
    ensures LivePositions(t, ix)
  {
    if |t| == 0 then []
    else
      var init := t[..|t| - 1];
      assert t == init + [t[|t| - 1]];
      PositionsSnoc(init, LiveIndices(init), t[|t| - 1]);
      if IsLive(t[|t| - 1]) then LiveIndices(init) + [|t| - 1] else LiveIndices(init)
  }

  /** Appending a row extends the live positions by its position exactly when it is live. */
  lemma PositionsSnoc(t: Table, ix: seq<nat>, r: Record)
    requires LivePositions(t, ix)
    ensures LivePositions(t + [r], if IsLive(r) then ix + [|t|] else ix)
  {
    var u := t + [r];
    var jx := if IsLive(r) then ix + [|t|] else ix;
    forall k | 0 <= k < |jx|
      ensures jx[k] < |u| && IsLive(u[jx[k]])
    {
      if k < |ix| {
        assert jx[k] == ix[k] && u[ix[k]] == t[ix[k]];
      }
    }
    forall k, l | 0 <= k < l < |jx|
      ensures jx[k] < jx[l]
    {
      if l < |ix| {
        assert jx[k] == ix[k] && jx[l] == ix[l];
      } else {
        assert jx[k] == ix[k] < |t|;
      }
    }
    forall i | 0 <= i < |u| && IsLive(u[i])
      ensures i in jx
    {
      if i < |t| {
        assert u[i] == t[i] && i in ix;
      } else {
        assert jx[|jx| - 1] == i;
      }
    }
  }

  /** Appending a row extends the filter by its projection exactly when it is live. */
  lemma FilteredSnoc(t: Table, rows: seq<LeakRow>, ix: seq<nat>, r: Record)
    requires FilteredBy(t, rows, ix)
    ensures FilteredBy(t + [r], if IsLive(r) then rows + [Project(r)] else rows, if IsLive(r) then ix + [|t|] else ix)
  {
    PositionsSnoc(t, ix, r);
    var u := t + [r];
    assert forall k :: 0 <= k < |ix| ==> u[ix[k]] == t[ix[k]];
  }

  /** When the last row is live, it is the last live position. */
  lemma LastLivePosition(t: Table, ix: seq<nat>)
    requires LivePositions(t, ix)
    requires |t| > 0 && IsLive(t[|t| - 1])
    ensures |ix| > 0 && ix[|ix| - 1] == |t| - 1
  {
    var k :| 0 <= k < |ix| && ix[k] == |t| - 1;
  }

  /** Dropping the last row, and its position if it had one, gives the live positions of the shorter table. */
  lemma PositionsTrim(t: Table, ix: seq<nat>)
    requires |t| > 0 && LivePositions(t, ix)
    ensures IsLive(t[|t| - 1]) ==> |ix| > 0 && LivePositions(t[..|t| - 1], ix[..|ix| - 1])
    ensures !IsLive(t[|t| - 1]) ==> LivePositions(t[..|t| - 1], ix)
  {
    var n := |t| - 1;
    var init := t[..n];
    if IsLive(t[n]) {
      LastLivePosition(t, ix);
      var a := |ix| - 1;
      forall i | 0 <= i < n && IsLive(init[i])
        ensures i in ix[..a]
      {
        var k :| 0 <= k < |ix| && ix[k] == i;
        assert k != a;
      }
      forall k | 0 <= k < a
        ensures ix[..a][k] < n
      {
        assert ix[k] < ix[a];
      }
    } else {
      forall k | 0 <= k < |ix|
        ensures ix[k] < n
      {
        assert ix[k] != n;
      }
    }
  }

  /** The live positions are unique: two increasing lists of exactly the live positions coincide. */
  lemma {:induction false} LivePositionsUnique(t: Table, ix: seq<nat>, jx: seq<nat>)
    requires LivePositions(t, ix) && LivePositions(t, jx)
    ensures ix == jx
  {
    if |t| == 0 {
      assert ix == [] && jx == [];
    } else {
      var n := |t| - 1;
      PositionsTrim(t, ix);
      PositionsTrim(t, jx);
      if IsLive(t[n]) {
        LastLivePosition(t, ix);
        LastLivePosition(t, jx);
        var ix', jx' := ix[..|ix| - 1], jx[..|jx| - 1];
        LivePositionsUnique(t[..n], ix', jx');
        assert ix == ix' + [n];
        assert jx == jx' + [n];
      } else {
        LivePositionsUnique(t[..n], ix, jx);
      }
    }
  }

  /** The live rows of `t`, projected, in table order. */
  function LiveRows(t: Table): (rows: seq<LeakRow>)
    ensures |rows| <= |t|
    ensures OnlyLive(t, rows)
    ensures EveryLive(t, rows)
  {
    if |t| == 0 then []
    else
      var init := t[..|t| - 1];
      var last := t[|t| - 1];
      assert forall i :: 0 <= i < |init| ==> init[i] == t[i];
      if IsLive(last) then LiveRows(init) + [Project(last)] else LiveRows(init)
  }

  /**
   * The listing is the filter of the table by liveness: one entry per live
   * row, in table order, so a live row's projection is listed as many times
   * as there are live rows with that projection.
   */
  lemma {:induction false} LiveRowsFilter(t: Table)
    ensures FilteredBy(t, LiveRows(t), LiveIndices(t))
  {
    if |t| > 0 {
      var init := t[..|t| - 1];
      LiveRowsFilter(init);
      assert t == init + [t[|t| - 1]];
      FilteredSnoc(init, LiveRows(init), LiveIndices(init), t[|t| - 1]);
    }
  }

  /** `COUNT(*) ... WHERE freed = 0`. */
  function LiveCount(t: Table): nat {
    if |t| == 0 then 0
    else LiveCount(t[..|t| - 1]) + (if IsLive(t[|t| - 1]) then 1 else 0)
  }

  /** The sum of the sizes of the live rows (`SUM(size) ... WHERE freed = 0` when there is one). */
  function LiveBytes(t: Table): int {
    if |t| == 0 then 0
    else LiveBytes(t[..|t| - 1]) + (if IsLive(t[|t| - 1]) then t[|t| - 1].size else 0)
  }

  /** The sum of the sizes of a list of leak rows. */
  function SumSizes(rows: seq<LeakRow>): int {
    if |rows| == 0 then 0 else SumSizes(rows[..|rows| - 1]) + rows[|rows| - 1].size
  }

  /** The counting query and the listing query agree: as many leaks, and the same byte total. */
  lemma {:induction false} CountsAgreeWithRows(t: Table)
    ensures LiveCount(t) == |LiveRows(t)|
    ensures LiveBytes(t) == SumSizes(LiveRows(t))
  {
    if |t| > 0 {
      var init := t[..|t| - 1];
      CountsAgreeWithRows(init);
      if IsLive(t[|t| - 1]) {
        var rows := LiveRows(init) + [Project(t[|t| - 1])];
        assert rows[..|rows| - 1] == LiveRows(init);
      }
    }
  }

  /** The number of live rows at address `a`. */
  function LiveCountAt(t: Table, a: nat): nat {
    if |t| == 0 then 0
    else LiveCountAt(t[..|t| - 1], a) + (if Matches(t[|t| - 1], a) then 1 else 0)
  }

  /** The byte total of the live rows at address `a`. */
  function LiveBytesAt(t: Table, a: nat): int {
    if |t| == 0 then 0
    else LiveBytesAt(t[..|t| - 1], a) + (if Matches(t[|t| - 1], a) then t[|t| - 1].size else 0)
  }

  /** The tracer's UPDATE removes from the leak count and total exactly the live rows at the freed address. */
  lemma {:induction false} MarkFreedRemovesLeaksAt(t: Table, a: nat, now: nat)
    ensures LiveCount(MarkFreed(t, a, now)) == LiveCount(t) - LiveCountAt(t, a)
    ensures LiveBytes(MarkFreed(t, a, now)) == LiveBytes(t) - LiveBytesAt(t, a)
  {
    if |t| > 0 {
      var init := t[..|t| - 1];
      var u := MarkFreed(t, a, now);
      assert u[..|t| - 1] == MarkFreed(init, a, now);
      MarkFreedRemovesLeaksAt(init, a, now);
    }
  }

  /** A table whose only live row at `a` is row `i` counts one live row at `a`, of row `i`'s size. */
  lemma {:induction false} SingleLiveRowAt(t: Table, a: nat, i: nat)
    requires i < |t| && Matches(t[i], a)
    requires forall j :: 0 <= j < |t| && Matches(t[j], a) ==> j == i
    ensures LiveCountAt(t, a) == 1
    ensures LiveBytesAt(t, a) == t[i].size
  {
    var init := t[..|t| - 1];
    if i == |t| - 1 {
      NoneLiveAt(init, a);
    } else {
      SingleLiveRowAt(init, a, i);
    }
  }

  /** A table with no live row at `a` counts none there. */
  lemma {:induction false} NoneLiveAt(t: Table, a: nat)
    requires NoLiveAt(t, a)
    ensures LiveCountAt(t, a) == 0
    ensures LiveBytesAt(t, a) == 0
  {
    if |t| > 0 {
      NoneLiveAt(t[..|t| - 1], a);
    }
  }

  /**
   * With at most one live row per address, a traced `free` of a leaked
   * block lowers the leak count by one and the leaked bytes by that block's size.
   */
  lemma FreeOfLeakRemovesOne(t: Table, i: nat, now: nat)
    requires AtMostOneLive(t)
    requires i < |t| && IsLive(t[i])
    ensures LiveCount(MarkFreed(t, t[i].address, now)) == LiveCount(t) - 1
    ensures LiveBytes(MarkFreed(t, t[i].address, now)) == LiveBytes(t) - t[i].size
  {
    MarkFreedRemovesLeaksAt(t, t[i].address, now);
    SingleLiveRowAt(t, t[i].address, i);
  }

  /** A traced `malloc` that appends a live row raises the leak count by one and the leaked bytes by its size. */
  lemma AppendAddsOne(t: Table, u: Table, address: nat, size: int, pid: int, now: nat)
    requires Appended(t, u, address, size, pid, now)
    ensures LiveCount(u) == LiveCount(t) + 1
    ensures LiveBytes(u) == LiveBytes(t) + size
  {
    assert u[..|u| - 1] == t;
  }

  /** A table without live rows lists no leaks. */
  lemma {:induction false} NoLiveNoRows(t: Table)
    requires NoLive(t)
    ensures LiveRows(t) == []
  {
    if |t| > 0 {
      NoLiveNoRows(t[..|t| - 1]);
    }
  }

  /** `get_current_leaks`: exactly the live rows, projected; nothing when the connection failed. */
  function CurrentLeaks(db: Option<Database>): (rows: seq<LeakRow>)
    ensures db.None? ==> rows == []
    ensures db.Some? ==> OnlyLive(db.value.allocations, rows) && EveryLive(db.value.allocations, rows)
  {
    match db
    case None => []
    case Some(d) => LiveRows(d.allocations)
  }

  /**
   * `get_current_leaks` with a connection lists each live row once, in table
   * order, and nothing else; no other list of live positions exists.
   */
  lemma CurrentLeaksAreFilter(d: Database, ix: seq<nat>)
    requires LivePositions(d.allocations, ix)
    ensures FilteredBy(d.allocations, CurrentLeaks(Some(d)), ix)
  {
    LiveRowsFilter(d.allocations);
    LivePositionsUnique(d.allocations, ix, LiveIndices(d.allocations));
  }

  /**
   * The dictionary `get_leak_statistics` returns, as the code builds it:
   * `total_bytes` is `SUM(size)`, which SQL makes NULL (Python `None`) when
   * no row is live.
   */
  datatype Statistics = Statistics(totalLeaks: nat, totalBytes: Option<int>)

  /** `get_leak_statistics` as written. */
  function LeakStatistics(db: Option<Database>): (r: Option<Statistics>)
    ensures r.None? <==> db.None?
    ensures r.Some? ==> r.value.totalLeaks == |CurrentLeaks(db)|
    ensures r.Some? ==> (r.value.totalBytes.None? <==> r.value.totalLeaks == 0)
    ensures r.Some? && r.value.totalBytes.Some? ==> r.value.totalBytes.value == SumSizes(CurrentLeaks(db))
  {
    match db
    case None => None
    case Some(d) =>
      CountsAgreeWithRows(d.allocations);
      var n := LiveCount(d.allocations);
      Some(Statistics(n, if n == 0 then None else Some(LiveBytes(d.allocations))))
  }

  /**
   * With no live row, `get_leak_statistics` reports `total_bytes` as `None`,
   * not 0, and `print_summary` shows that `None` as the leaked memory.
   */
  lemma NoLeaksGiveNullBytes(d: Database)
    requires NoLive(d.allocations)
    ensures LeakStatistics(Some(d)) == Some(Statistics(0, None))
    ensures PrintSummary(Some(d)).totals == Some(Statistics(0, None))
  {
    NoLiveNoRows(d.allocations);
  }

  /** The statistics with `total_bytes` read as `IFNULL(SUM(size), 0)`. */
  datatype Totals = Totals(totalLeaks: nat, totalBytes: int)

  /** `get_leak_statistics` with the empty sum read as 0. */
  function LeakTotals(db: Option<Database>): (r: Option<Totals>)
    ensures r.None? <==> db.None?
    ensures r.Some? ==> r.value.totalLeaks == |CurrentLeaks(db)|
    ensures r.Some? ==> r.value.totalBytes == SumSizes(CurrentLeaks(db))
  {
    match LeakStatistics(db)
    case None => None
    case Some(s) => Some(Totals(s.totalLeaks, s.totalBytes.GetOr(0)))
  }

  /** `get_leak_history`: the newest ten reports, newest first. */
  function LeakHistory(db: Option<Database>): (r: seq<Report>)
    ensures db.None? ==> r == []
    ensures db.Some? ==> |r| == if |db.value.reports| < 10 then |db.value.reports| else 10
    ensures NonIncreasing(r, ReportDate)
    ensures db.Some? ==> multiset(r) <= multiset(db.value.reports)
    ensures db.Some? ==> forall x, i :: x in multiset(db.value.reports) - multiset(r) && 0 <= i < |r| ==> x.date <= r[i].date
  {
    match db
    case None => []
    case Some(d) => TopK(d.reports, ReportDate, 10)
  }

  /** What `compare_executions` computes from the two newest reports. */
  datatype Comparison = Comparison(latest: Report, previous: Report, leakDiff: int, bytesDiff: int)

  /**
   * `compare_executions`: nothing without a connection or with fewer than
   * two reports; otherwise the differences between the newest report and
   * the one before it.
   */
  function CompareExecutions(db: Option<Database>): (r: Option<Comparison>)
    ensures r.None? <==> db.None? || |db.value.reports| < 2
    ensures r.Some? ==> r.value.leakDiff == r.value.latest.totalLeaks - r.value.previous.totalLeaks
    ensures r.Some? ==> r.value.bytesDiff == r.value.latest.totalLeakedBytes - r.value.previous.totalLeakedBytes
    ensures r.Some? ==> TwoNewest(db.value.reports, r.value.latest, r.value.previous)
  {
    match db
    case None => None
    case Some(d) =>
      var ordered := SortDesc(d.reports, ReportDate);
      if |ordered| < 2 then None
      else
        HeadsAreNewest(d.reports, ordered);
        var latest := ordered[0];
        var previous := ordered[1];
        Some(Comparison(latest, previous,
                        latest.totalLeaks - previous.totalLeaks,
                        latest.totalLeakedBytes - previous.totalLeakedBytes))
  }

  /**
   * `latest` and `previous` are two distinct reports of `reports`, `latest`
   * no older than `previous`, and every other report no newer than `previous`.
   */
  predicate TwoNewest(reports: seq<Report>, latest: Report, previous: Report) {
    && multiset{latest, previous} <= multiset(reports)
    && latest.date >= previous.date
    && forall x :: x in multiset(reports) - multiset{latest, previous} ==> x.date <= previous.date
  }

  /** The first two entries of the reports ordered newest first are the two newest. */
  lemma HeadsAreNewest(reports: seq<Report>, ordered: seq<Report>)
    requires NonIncreasing(ordered, ReportDate)
    requires multiset(ordered) == multiset(reports)
    requires |ordered| >= 2
    ensures TwoNewest(reports, ordered[0], ordered[1])
  {
    var rest := ordered[2..];
    assert ordered == [ordered[0], ordered[1]] + rest;
    assert multiset(reports) - multiset{ordered[0], ordered[1]} == multiset(rest);
    assert ReportDate(ordered[0]) >= ReportDate(ordered[1]);
    forall x: Report | x in multiset(rest)
      ensures x.date <= ordered[1].date
    {
      var j :| 0 <= j < |rest| && rest[j] == x;
      assert ReportDate(ordered[1]) >= ReportDate(ordered[j + 2]);
    }
  }

  /** The comparison's two reports are the first two lines of the history. */
  lemma ComparisonHeadsHistory(db: Option<Database>)
    requires CompareExecutions(db).Some?
    ensures |LeakHistory(db)| >= 2
    ensures LeakHistory(db)[0] == CompareExecutions(db).value.latest
    ensures LeakHistory(db)[1] == CompareExecutions(db).value.previous
  {
  }

  /** The "Top Leaks" list of `print_summary`: the five largest leaks, largest first. */
  function TopLeaks(leaks: seq<LeakRow>): (r: seq<LeakRow>)
    ensures |r| == if |leaks| < 5 then |leaks| else 5
    ensures NonIncreasing(r, LeakSize)
    ensures multiset(r) <= multiset(leaks)
    ensures forall x, i :: x in multiset(leaks) - multiset(r) && 0 <= i < |r| ==> x.size <= r[i].size
  {
    TopK(leaks, LeakSize, 5)
  }

  /** What `print_summary` reports, without the text rendering and the average. */
  datatype Summary = Summary(totals: Option<Statistics>, history: seq<Report>, topLeaks: seq<LeakRow>)

  /**
   * `print_summary`: the statistics as `get_leak_statistics` returns them
   * (so `None` bytes when nothing leaks), the last ten reports, and up to
   * five largest current leaks, each of which is a live row of the table.
   */
  function PrintSummary(db: Option<Database>): (r: Summary)
    ensures r.totals.Some? <==> db.Some?
    ensures r.totals.Some? ==> r.totals.value.totalLeaks == |CurrentLeaks(db)|
    ensures r.totals.Some? ==> (r.totals.value.totalBytes.None? <==> CurrentLeaks(db) == [])
    ensures r.totals.Some? && r.totals.value.totalBytes.Some? ==> r.totals.value.totalBytes.value == SumSizes(CurrentLeaks(db))
    ensures r.history == LeakHistory(db)
    ensures |r.history| <= 10 && |r.topLeaks| <= 5
    ensures r.topLeaks == [] <==> CurrentLeaks(db) == []
    ensures |r.topLeaks| == if |CurrentLeaks(db)| < 5 then |CurrentLeaks(db)| else 5
    ensures NonIncreasing(r.topLeaks, LeakSize)
    ensures multiset(r.topLeaks) <= multiset(CurrentLeaks(db))
    ensures forall x, i :: x in multiset(CurrentLeaks(db)) - multiset(r.topLeaks) && 0 <= i < |r.topLeaks| ==> x.size <= r.topLeaks[i].size
    ensures db.Some? ==> OnlyLive(db.value.allocations, r.topLeaks)
  {
    var leaks := CurrentLeaks(db);
    var top := if |leaks| > 0 then TopLeaks(leaks) else [];
    assert db.Some? ==> OnlyLive(db.value.allocations, top) by {
      if db.Some? {
        SubsetKeepsOnlyLive(db.value.allocations, leaks, top);
      }
    }
    Summary(LeakStatistics(db), LeakHistory(db), top)
  }

  /** A selection drawn from projections of live rows is itself drawn from them. */
  lemma SubsetKeepsOnlyLive(t: Table, rows: seq<LeakRow>, picked: seq<LeakRow>)
    requires OnlyLive(t, rows)
    requires multiset(picked) <= multiset(rows)
    ensures OnlyLive(t, picked)
  {
    forall k | 0 <= k < |picked|
      ensures IsLeakOf(t, picked[k])
    {
      assert picked[k] in multiset(picked);
      assert picked[k] in rows;
    }
  }
}

=== FILE: hook_runs.dfy ===
/**
 * Whole runs of a traced process: the host's sequence of top-level calls
 * into the interposed `malloc` and `free`, then the exit-time destructor,
 * and the invariants the `allocations` table keeps across them.
 */
module HookRuns {
  import opened Wrappers
  import opened Ledger
  import opened Hook

  /** One top-level event of the host process, stamped with the clock reading it happens at. */
  datatype Call =
    | HostMalloc(size: SizeT, result: nat, at: nat)  // malloc(size), real_malloc returned `result`
    | HostFree(ptr: nat, at: nat)                     // free(ptr)
    | Teardown                                        // cleanup_hook at process exit

  /** The state after the host's calls, or `Exited` when a call ended the process. */
  function Run(s: Shim, env: Platform, calls: seq<Call>): Progress
    decreases |calls|
  {
    if |calls| == 0 then Running(s)
    else
      match calls[0]
      case HostMalloc(size, p, at) =>
        (match Malloc(s, env, size, p, at)
         case MallocExited => Exited
         case Returned(s', _) => Run(s', env, calls[1..]))
      case HostFree(ptr, at) => Run(Free(s, ptr, at).shim, env, calls[1..])
      case Teardown => Run(Cleanup(s), env, calls[1..])
  }

  /** The clock reading after `c`, when the previous one was `prev`. */
  function TimeAfter(c: Call, prev: nat): nat {
    match c
    case HostMalloc(_, _, at) => at
    case HostFree(_, at) => at
    case Teardown => prev
  }

  /** The calls' clock readings never run backwards, starting from `now`. */
  predicate ClockMonotone(calls: seq<Call>, now: nat)
    decreases |calls|
  {
    |calls| == 0 || (TimeAfter(calls[0], now) >= now && ClockMonotone(calls[1..], TimeAfter(calls[0], now)))
  }

  /** The clock reading after all of `calls`. */
  function FinalTime(calls: seq<Call>, now: nat): nat
    decreases |calls|
  {
    if |calls| == 0 then now else FinalTime(calls[1..], TimeAfter(calls[0], now))
  }

  /**
   * The allocator behind the shim is honest: it never hands out an address
   * that is still allocated. `heap` is the set of addresses the traced
   * `malloc` has handed to the host and the host has not yet freed; a `free`
   * of any other pointer (NULL, a block from before initialisation or from
   * `calloc`) is allowed.
   */
  predicate HonestAllocator(calls: seq<Call>, heap: set<nat>)
    decreases |calls|
  {
    |calls| == 0 ||
    match calls[0]
    case HostMalloc(_, p, _) =>
      (p == 0 || p !in heap) && HonestAllocator(calls[1..], if p == 0 then heap else heap + {p})
    case HostFree(ptr, _) =>
      HonestAllocator(calls[1..], if ptr == 0 then heap else heap - {ptr})
    case Teardown => HonestAllocator(calls[1..], heap)
  }

  /** What holds between top-level calls, as of clock reading `now`. */
  predicate Quiescent(s: Shim, now: nat) {
    && WellFormed(s.ledger, now)
    && !s.inHook
    && (s.hookDb ==> s.initialized)
  }

  /**
   * The address discipline between top-level calls: at most one live row
   * per address, every live row's address allocated while the store is
   * open, and no live row at all before initialisation.
   */
  predicate AddressDiscipline(s: Shim, heap: set<nat>) {
    && AtMostOneLive(s.ledger)
    && (s.hookDb ==> LiveWithin(s.ledger, heap))
    && (!s.initialized ==> NoLive(s.ledger))
  }

  /** One interposed `malloc` keeps the table well formed and leaves `in_hook` clear. */
  lemma MallocKeepsQuiescent(s: Shim, env: Platform, size: SizeT, p: nat, now: nat, at: nat)
    requires Quiescent(s, now)
    requires now <= at
    ensures Malloc(s, env, size, p, at).Returned? ==> Quiescent(Malloc(s, env, size, p, at).shim, at)
  {
    var r := Malloc(s, env, size, p, at);
    if r.Returned? {
      var s1 := s.(inHook := true);
      var i := InitDbOnce(s1, env);
      if i.Running? && i.shim.hookDb && p != 0 {
        InsertPreservesWellFormed(s.ledger, p, CInt(size), env.pid, now, at);
      } else {
        assert r.shim.ledger == s.ledger;
      }
    }
  }

  /** One interposed `free` keeps the table well formed and leaves `in_hook` clear. */
  lemma FreeKeepsQuiescent(s: Shim, ptr: nat, now: nat, at: nat)
    requires Quiescent(s, now)
    requires now <= at
    ensures Quiescent(Free(s, ptr, at).shim, at)
  {
    if s.hookDb && ptr != 0 {
      MarkFreedPreservesWellFormed(s.ledger, ptr, now, at);
    }
  }

  /**
   * On every run from a well-formed table, every row has `freed` set exactly
   * when it has a `freed_timestamp`, is freed no earlier than it was
   * allocated, ids keep growing, and `in_hook` is clear between calls.
   */
  lemma {:induction false} RunKeepsQuiescent(s: Shim, env: Platform, calls: seq<Call>, now: nat)
    requires Quiescent(s, now)
    requires ClockMonotone(calls, now)
    ensures Run(s, env, calls).Running? ==> Quiescent(Run(s, env, calls).shim, FinalTime(calls, now))
    decreases |calls|
  {
    if |calls| > 0 {
      var at := TimeAfter(calls[0], now);
      match calls[0]
      case HostMalloc(size, p, _) =>
        MallocKeepsQuiescent(s, env, size, p, now, at);
        var r := Malloc(s, env, size, p, at);
        if r.Returned? {
          RunKeepsQuiescent(r.shim, env, calls[1..], at);
        }
      case HostFree(ptr, _) =>
        FreeKeepsQuiescent(s, ptr, now, at);
        RunKeepsQuiescent(Free(s, ptr, at).shim, env, calls[1..], at);
      case Teardown =>
        RunKeepsQuiescent(Cleanup(s), env, calls[1..], at);
    }
  }

  /** One interposed `malloc` of an address the allocator does not currently hold keeps the address discipline. */
  lemma MallocKeepsDiscipline(s: Shim, env: Platform, size: SizeT, p: nat, at: nat, heap: set<nat>)
    requires !s.inHook && (s.hookDb ==> s.initialized)
    requires AddressDiscipline(s, heap)
    requires p == 0 || p !in heap
    ensures Malloc(s, env, size, p, at).Returned? ==>
      AddressDiscipline(Malloc(s, env, size, p, at).shim, if p == 0 then heap else heap + {p})
  {
    var r := Malloc(s, env, size, p, at);
    var heap' := if p == 0 then heap else heap + {p};
    if r.Returned? {
      if r.shim.hookDb && p != 0 {
        var t := s.ledger;
        var u := r.shim.ledger;
        assert LiveWithin(t, heap) by {
          if !s.hookDb {
            assert !s.initialized;
          }
        }
        assert NoLiveAt(t, p);
        assert u == t + [u[|t|]];
        InsertPreservesAtMostOneLive(t, u[|t|]);
      }
    }
  }

  /** One interposed `free` of any pointer, traced or not, keeps the address discipline. */
  lemma FreeKeepsDiscipline(s: Shim, ptr: nat, at: nat, heap: set<nat>)
    requires !s.inHook
    requires AddressDiscipline(s, heap)
    ensures AddressDiscipline(Free(s, ptr, at).shim, if ptr == 0 then heap else heap - {ptr})
  {
    if s.hookDb && ptr != 0 {
      var t := s.ledger;
      var u := Free(s, ptr, at).shim.ledger;
      MarkFreedPreservesAtMostOneLive(t, ptr, at);
      forall i | 0 <= i < |u| && IsLive(u[i])
        ensures u[i].address in heap - {ptr}
      {
        assert u[i] == t[i];
      }
    }
  }

  /**
   * At most one live row per address on every run that starts with no live
   * rows (an empty table, say), as long as the allocator never hands out an
   * address that is still allocated.
   */
  lemma {:induction false} RunKeepsAtMostOneLive(s: Shim, env: Platform, calls: seq<Call>, heap: set<nat>)
    requires !s.inHook && (s.hookDb ==> s.initialized)
    requires AddressDiscipline(s, heap)
    requires HonestAllocator(calls, heap)
    ensures Run(s, env, calls).Running? ==> AtMostOneLive(Run(s, env, calls).shim.ledger)
    decreases |calls|
  {
    if |calls| > 0 {
      match calls[0]
      case HostMalloc(size, p, at) =>
        MallocKeepsDiscipline(s, env, size, p, at, heap);
        var r := Malloc(s, env, size, p, at);
        if r.Returned? {
          RunKeepsAtMostOneLive(r.shim, env, calls[1..], if p == 0 then heap else heap + {p});
        }
      case HostFree(ptr, at) =>
        FreeKeepsDiscipline(s, ptr, at, heap);
        RunKeepsAtMostOneLive(Free(s, ptr, at).shim, env, calls[1..], if ptr == 0 then heap else heap - {ptr});
      case Teardown =>
        RunKeepsAtMostOneLive(Cleanup(s), env, calls[1..], heap);
    }
  }

  /** A fresh process over a table with no live rows meets the address discipline for any heap. */
  lemma StartMeetsDiscipline(t: Table, heap: set<nat>)
    requires NoLive(t)
    ensures AddressDiscipline(Start(t), heap)
  {
  }

  /**
   * A traced allocation of an address with no live row leaves exactly one
   * live row for it: the one just appended.
   */
  lemma MallocLeavesOneLiveRow(s: Shim, env: Platform, size: SizeT, p: nat, at: nat)
    requires !s.inHook
    requires NoLiveAt(s.ledger, p)
    requires Malloc(s, env, size, p, at).Returned?
    requires Malloc(s, env, size, p, at).shim.hookDb && p != 0
    ensures var u := Malloc(s, env, size, p, at).shim.ledger;
      && IsLive(u[|s.ledger|]) && u[|s.ledger|].address == p
      && forall i :: 0 <= i < |u| && IsLive(u[i]) && u[i].address == p ==> i == |s.ledger|
  {
    var u := Malloc(s, env, size, p, at).shim.ledger;
    assert forall i :: 0 <= i < |s.ledger| ==> u[i] == u[..|s.ledger|][i] == s.ledger[i];
  }

  /** After the exit-time destructor nothing the host does reaches the table, and the process never exits early. */
  lemma {:induction false} AfterTeardownNothingRecorded(s: Shim, env: Platform, calls: seq<Call>)
    requires s.initialized && !s.hookDb && !s.inHook
    ensures Run(s, env, calls).Running?
    ensures Run(s, env, calls).shim.ledger == s.ledger
    decreases |calls|
  {
    if |calls| > 0 {
      match calls[0]
      case HostMalloc(size, p, at) =>
        AfterTeardownNothingRecorded(Malloc(s, env, size, p, at).shim, env, calls[1..]);
      case HostFree(ptr, at) =>
        AfterTeardownNothingRecorded(Free(s, ptr, at).shim, env, calls[1..]);
      case Teardown =>
        AfterTeardownNothingRecorded(Cleanup(s), env, calls[1..]);
    }
  }

  /**
   * Address reuse: `alloc p; free p; alloc p` with the store open appends two
   * rows for `p`, the first freed at the time of the free, the second live,
   * and touches no earlier row.
   */
  lemma AddressReuseMakesTwoRows(s: Shim, env: Platform, n1: SizeT, n2: SizeT, p: nat, t1: nat, t2: nat, t3: nat)
    requires s.initialized && s.hookDb && !s.inHook
    requires p != 0 && NoLiveAt(s.ledger, p)
    ensures var r := Run(s, env, [HostMalloc(n1, p, t1), HostFree(p, t2), HostMalloc(n2, p, t3)]);
      var k := |s.ledger|;
      && r.Running?
      && |r.shim.ledger| == k + 2
      && r.shim.ledger[..k] == s.ledger
      && r.shim.ledger[k].address == p && r.shim.ledger[k].size == CInt(n1)
      && r.shim.ledger[k].freed && r.shim.ledger[k].freedAt == Some(t2)
      && r.shim.ledger[k + 1].address == p && r.shim.ledger[k + 1].size == CInt(n2)
      && IsLive(r.shim.ledger[k + 1]) && r.shim.ledger[k + 1].freedAt == None
      && r.shim.ledger[k].id < r.shim.ledger[k + 1].id
  {
    var k := |s.ledger|;
    var s1 := Malloc(s, env, n1, p, t1).shim;
    assert Appended(s.ledger, s1.ledger, p, CInt(n1), env.pid, t1);
    var s2 := Free(s1, p, t2).shim;
    assert FreeUpdate(s1.ledger, s2.ledger, p, t2);
    assert s2.ledger[k] == MarkRecord(s1.ledger[k], t2);
    var s3 := Malloc(s2, env, n2, p, t3).shim;
    assert Appended(s2.ledger, s3.ledger, p, CInt(n2), env.pid, t3);
    assert s3.ledger[k] == s2.ledger[..k + 1][k] == s2.ledger[k];
    forall i | 0 <= i < k
      ensures s3.ledger[i] == s.ledger[i]
    {
      assert s3.ledger[i] == s2.ledger[..k + 1][i] == s2.ledger[i];
      assert s1.ledger[i] == s1.ledger[..k][i] == s.ledger[i];
    }
    RunThree(s, env, HostMalloc(n1, p, t1), HostFree(p, t2), HostMalloc(n2, p, t3));
    assert Run(s, env, [HostMalloc(n1, p, t1)]) == Running(s1);
    RunTwo(s1, env, HostFree(p, t2), HostMalloc(n2, p, t3));
    assert Run(s1, env, [HostFree(p, t2)]) == Running(s2);
    assert Run(s2, env, [HostMalloc(n2, p, t3)]) == Running(s3);
  }

  /** Unfolds `Run` over two calls. */
  lemma RunTwo(s: Shim, env: Platform, c1: Call, c2: Call)
    ensures Run(s, env, [c1, c2]) == (match Run(s, env, [c1]) case Exited => Exited case Running(s1) => Run(s1, env, [c2]))
  {
    assert [c1, c2][1..] == [c2];
    assert [c1][1..] == [];
  }

  /** Unfolds `Run` over three calls. */
  lemma RunThree(s: Shim, env: Platform, c1: Call, c2: Call, c3: Call)
    ensures Run(s, env, [c1, c2, c3]) == (match Run(s, env, [c1]) case Exited => Exited case Running(s1) => Run(s1, env, [c2, c3]))
  {
    assert [c1, c2, c3][1..] == [c2, c3];
    assert [c1][1..] == [];
  }

  /**
   * Rows left live by an earlier process are matched by address alone: when
   * a later process is handed the same address and frees it, the earlier
   * run's leak is marked freed as well, whatever its `process_id`.
   */
  lemma EarlierRunLeakClearedByReuse(t: Table, env: Platform, i: nat, n: SizeT, t1: nat, t2: nat)
    requires env.symbolsResolve && env.dbOpens
    requires 0 <= i < |t| && IsLive(t[i]) && t[i].address != 0
    requires t[i].pid != env.pid
    ensures var r := Run(Start(t), env, [HostMalloc(n, t[i].address, t1), HostFree(t[i].address, t2)]);
      && r.Running?
      && i < |r.shim.ledger|
      && r.shim.ledger[i].freed && r.shim.ledger[i].pid != env.pid
  {
    var p := t[i].address;
    var calls := [HostMalloc(n, p, t1), HostFree(p, t2)];
    var s1 := Malloc(Start(t), env, n, p, t1).shim;
    var s2 := Free(s1, p, t2).shim;
    assert calls[1..] == [HostFree(p, t2)];
    assert Run(Start(t), env, calls) == Run(s1, env, calls[1..]) == Running(s2);
    assert s1.ledger[..|t|][i] == t[i];
  }

  /**
   * Why `RunKeepsAtMostOneLive` needs a start without live rows: a row left
   * live by an earlier process at an address the allocator hands out again
   * sits next to the new row, so one traced `malloc` already leaves two live
   * rows for that address.
   */
  lemma EarlierRunLeakBreaksOneLive(t: Table, env: Platform, i: nat, n: SizeT, t1: nat)
    requires env.symbolsResolve && env.dbOpens
    requires 0 <= i < |t| && IsLive(t[i]) && t[i].address != 0
    ensures var r := Run(Start(t), env, [HostMalloc(n, t[i].address, t1)]);
      && r.Running?
      && |r.shim.ledger| == |t| + 1
      && IsLive(r.shim.ledger[i]) && IsLive(r.shim.ledger[|t|])
      && r.shim.ledger[i].address == r.shim.ledger[|t|].address
      && !AtMostOneLive(r.shim.ledger)
  {
    var p := t[i].address;
    var s1 := Malloc(Start(t), env, n, p, t1).shim;
    assert [HostMalloc(n, p, t1)][1..] == [];
    assert Run(Start(t), env, [HostMalloc(n, p, t1)]) == Running(s1);
    assert s1.ledger[i] == s1.ledger[..|t|][i] == t[i];
  }
}

=== FILE: ledger.dfy ===
/**
 * The `allocations` table of memory_leak.db as an abstract sequence of rows,
 * in insertion order. The two statements the tracer issues against it are
 * modelled here: the INSERT of a fresh row and the UPDATE that marks every
 * live row with a given address as freed.
 *
 * Addresses are the allocator's pointers as naturals (0 is NULL); the `%p`
 * text the table stores is taken to be an injective rendering of them.
 * Times are readings of a clock that never runs backwards.
 */
module Ledger {
  import opened Wrappers

  /** One row of `allocations`. */
  datatype Record = Record(
    id: nat,              // INTEGER PRIMARY KEY AUTOINCREMENT
    address: nat,         // address TEXT NOT NULL
    size: int,            // size INTEGER NOT NULL, bound through a C `int`
    pid: int,             // process_id INTEGER NOT NULL
    timestamp: nat,       // datetime('now') at the INSERT
    freed: bool,          // freed BOOLEAN DEFAULT 0
    freedAt: Option<nat>  // freed_timestamp DATETIME, NULL until freed
  )

  type Table = seq<Record>

  /** A row the analyzer reports as a leak: `freed = 0`. */
  predicate IsLive(r: Record) {
    !r.freed
  }

  /** `freed` is set exactly when `freed_timestamp` is present. */
  predicate FreedConsistent(r: Record) {
    r.freed <==> r.freedAt.Some?
  }

  /** A row is freed no earlier than it was allocated, and nothing in it lies after `now`. */
  predicate TimesSane(r: Record, now: nat) {
    && r.timestamp <= now
    && (r.freedAt.Some? ==> r.timestamp <= r.freedAt.value <= now)
  }

  /** Row ids grow strictly in insertion order. */
  predicate IdsIncreasing(t: Table) {
    forall i, j :: 0 <= i < j < |t| ==> t[i].id < t[j].id
  }

  /** The shape every table written by the tracer keeps, as of clock reading `now`. */
  predicate WellFormed(t: Table, now: nat) {
    && (forall i :: 0 <= i < |t| ==> FreedConsistent(t[i]) && TimesSane(t[i], now))
    && IdsIncreasing(t)
  }

  /** No live row carries address `a`. */
  predicate NoLiveAt(t: Table, a: nat) {
    forall i :: 0 <= i < |t| && t[i].address == a ==> !IsLive(t[i])
  }

  /** At most one live row per address. */
  predicate AtMostOneLive(t: Table) {
    forall i, j ::
      0 <= i < |t| && 0 <= j < |t| && IsLive(t[i]) && IsLive(t[j]) && t[i].address == t[j].address
      ==> i == j
  }

  /** The address of every live row lies in `heap`. */
  predicate LiveWithin(t: Table, heap: set<nat>) {
    forall i :: 0 <= i < |t| && IsLive(t[i]) ==> t[i].address in heap
  }

  /** The largest id in use, 0 for an empty table. */
  function MaxId(t: Table): (m: nat)
    ensures forall i :: 0 <= i < |t| ==> t[i].id <= m
    ensures |t| > 0 ==> exists i :: 0 <= i < |t| && t[i].id == m
  {
    if |t| == 0 then 0
    else
      var m := MaxId(t[..|t| - 1]);
      if t[|t| - 1].id > m then t[|t| - 1].id else m
  }

  /** The id AUTOINCREMENT hands out next: one past the largest id ever used (rows are never deleted). */
  function NextId(t: Table): nat {
    MaxId(t) + 1
  }

  /** The row `INSERT INTO allocations(address, size, process_id, timestamp)` creates. */
  function NewRecord(t: Table, address: nat, size: int, pid: int, now: nat): Record {
    Record(NextId(t), address, size, pid, now, false, None)
  }

  /** The same row after `SET freed = 1, freed_timestamp = now`. */
  function MarkRecord(r: Record, now: nat): Record {
    r.(freed := true, freedAt := Some(now))
  }

  /** Whether `UPDATE ... WHERE address = a AND freed = 0` touches row `r`. */
  predicate Matches(r: Record, a: nat) {
    r.address == a && IsLive(r)
  }

  /** `u` is `t` with every row matching address `a` marked freed at `now`, and every other row untouched. */
  predicate FreeUpdate(t: Table, u: Table, a: nat, now: nat) {
    && |u| == |t|
    && forall i :: 0 <= i < |t| ==> u[i] == (if Matches(t[i], a) then MarkRecord(t[i], now) else t[i])
  }

  /** `u` is `t` with one fresh live row for `address` appended, every earlier row untouched. */
  predicate Appended(t: Table, u: Table, address: nat, size: int, pid: int, now: nat) {
    && |u| == |t| + 1
    && u[..|t|] == t
    && u[|t|].address == address
    && u[|t|].size == size
    && u[|t|].pid == pid
    && u[|t|].timestamp == now
    && !u[|t|].freed
    && u[|t|].freedAt == None
    && forall i :: 0 <= i < |t| ==> t[i].id < u[|t|].id
  }

  /** No row of `t` is live (for instance, an empty table). */
  predicate NoLive(t: Table) {
    forall i :: 0 <= i < |t| ==> !IsLive(t[i])
  }

  /** The INSERT appends exactly the row described by `Appended`. */
  lemma InsertAppends(t: Table, address: nat, size: int, pid: int, now: nat)
    ensures Appended(t, t + [NewRecord(t, address, size, pid, now)], address, size, pid, now)
  {
    var u := t + [NewRecord(t, address, size, pid, now)];
    assert u[..|t|] == t;
    forall i | 0 <= i < |t|
      ensures t[i].id < u[|t|].id
    {
      assert t[i].id <= MaxId(t);
    }
  }

  /**
   * `UPDATE allocations SET freed = 1, freed_timestamp = now WHERE address = a AND freed = 0`:
   * every matching row is marked, every other row is left as it was, and no row moves.
   */
  function MarkFreed(t: Table, a: nat, now: nat): (u: Table)
    ensures FreeUpdate(t, u, a, now)
  {
    if |t| == 0 then []
    else
      var last := t[|t| - 1];
      MarkFreed(t[..|t| - 1], a, now) + [if Matches(last, a) then MarkRecord(last, now) else last]
  }

  /** After the UPDATE no live row with address `a` remains. */
  lemma MarkFreedClearsAddress(t: Table, a: nat, now: nat)
    ensures NoLiveAt(MarkFreed(t, a, now), a)
  {
  }

  /** The INSERT keeps the table well formed, and the new row carries the largest id. */
  lemma InsertPreservesWellFormed(t: Table, address: nat, size: int, pid: int, now: nat, now': nat)
    requires WellFormed(t, now)
    requires now <= now'
    ensures WellFormed(t + [NewRecord(t, address, size, pid, now')], now')
  {
    var u := t + [NewRecord(t, address, size, pid, now')];
    forall i, j | 0 <= i < j < |u|
      ensures u[i].id < u[j].id
    {
      if j == |t| {
        assert u[i].id <= MaxId(t);
      }
    }
  }

  /** The UPDATE keeps the table well formed when it runs no earlier than any recorded time. */
  lemma MarkFreedPreservesWellFormed(t: Table, a: nat, now: nat, now': nat)
    requires WellFormed(t, now)
    requires now <= now'
    ensures WellFormed(MarkFreed(t, a, now'), now')
  {
    var u := MarkFreed(t, a, now');
    forall i, j | 0 <= i < j < |u|
      ensures u[i].id < u[j].id
    {
      assert u[i].id == t[i].id && u[j].id == t[j].id;
    }
  }

  /** Appending a live row at an address with no live row keeps at most one live row per address. */
  lemma InsertPreservesAtMostOneLive(t: Table, r: Record)
    requires AtMostOneLive(t)
    requires NoLiveAt(t, r.address)
    ensures AtMostOneLive(t + [r])
  {
    var u := t + [r];
    forall i, j | 0 <= i < |u| && 0 <= j < |u| && IsLive(u[i]) && IsLive(u[j]) && u[i].address == u[j].address
      ensures i == j
    {
      if i < |t| && j < |t| {
        assert u[i] == t[i] && u[j] == t[j];
      }
    }
  }

  /** The UPDATE only ever turns live rows into freed ones, so it keeps at most one live row per address. */
  lemma MarkFreedPreservesAtMostOneLive(t: Table, a: nat, now: nat)
    requires AtMostOneLive(t)
    ensures AtMostOneLive(MarkFreed(t, a, now))
  {
    var u := MarkFreed(t, a, now);
    forall i, j | 0 <= i < |u| && 0 <= j < |u| && IsLive(u[i]) && IsLive(u[j]) && u[i].address == u[j].address
      ensures i == j
    {
      assert u[i] == t[i] && u[j] == t[j];
    }
  }
}

=== FILE: memory_hook.dfy ===
/**
 * The interposed `malloc` and `free` of memory_hook.c as transitions of a
 * single-threaded state machine over the `allocations` table.
 *
 * The underlying allocator is an input: the pointer `real_malloc` returns is
 * a parameter of `Malloc`, and `real_free` is recorded as the pointer it is
 * handed. The loader and SQLite are reduced to the outcomes the shim reacts
 * to: whether `dlsym` resolves the real symbols, whether `sqlite3_open`
 * succeeds, and the process id.
 */
module Hook {
  import opened Wrappers
  import opened Ledger

  /** Values of C's `size_t` on a 64-bit target. */
  type SizeT = n: nat | n < 0x1_0000_0000_0000_0000

  /**
   * `(int)size` at memory_hook.c:89: the size narrowed to a 32-bit `int`,
   * wrapping modulo 2^32 into the two's-complement range as GCC and Clang do.
   */
  function CInt(n: SizeT): (v: int)
    ensures -0x8000_0000 <= v < 0x8000_0000
    ensures (n - v) % 0x1_0000_0000 == 0
    ensures n < 0x8000_0000 ==> v == n
  {
    var m := n % 0x1_0000_0000;
    if m < 0x8000_0000 then m else m - 0x1_0000_0000
  }

  /**
   * The shim's globals: the table behind `hook_db`, whether `hook_db` is
   * non-NULL, the (thread-local) `in_hook` flag and the `initialized` flag.
   */
  datatype Shim = Shim(ledger: Table, hookDb: bool, inHook: bool, initialized: bool)

  /** What the process environment decides for the shim. */
  datatype Platform = Platform(
    symbolsResolve: bool,  // dlsym(RTLD_NEXT, ...) finds both malloc and free
    dbOpens: bool,         // sqlite3_open("memory_leak.db", ...) returns SQLITE_OK
    pid: int               // getpid()
  )

  /** A process either went on running in some state, or ended in `_exit(1)`. */
  datatype Progress = Exited | Running(shim: Shim)

  /** The state at load time: the table holds whatever earlier runs left in memory_leak.db. */
  function Start(t: Table): Shim {
    Shim(t, false, false, false)
  }

  /**
   * `init_db_once`: the first call resolves the real symbols (exiting the
   * process when that fails) and opens the store, leaving `hook_db` NULL when
   * the open fails; later calls change nothing.
   */
  function InitDbOnce(s: Shim, env: Platform): (r: Progress)
    ensures s.initialized ==> r == Running(s)
    ensures !s.initialized ==> (r.Exited? <==> !env.symbolsResolve)
    ensures r.Running? ==> r.shim.initialized && r.shim.ledger == s.ledger && r.shim.inHook == s.inHook
    ensures r.Running? && !s.initialized ==> r.shim.hookDb == env.dbOpens
  {
    if s.initialized then Running(s)
    else if !env.symbolsResolve then Exited
    else Running(s.(initialized := true, hookDb := env.dbOpens))
  }

  /** What a call to the interposed `malloc` ends in. */
  datatype MallocResult = MallocExited | Returned(shim: Shim, ptr: nat)

  /**
   * The interposed `malloc(size)`, where `p` is what `real_malloc(size)`
   * returned at clock reading `now`. Inside the hook it is a plain
   * pass-through; otherwise it initialises on first use and appends a live
   * row when the store is open and `p` is non-NULL.
   */
  function Malloc(s: Shim, env: Platform, size: SizeT, p: nat, now: nat): (r: MallocResult)
    ensures s.inHook ==> r == Returned(s, p)
    ensures r.MallocExited? <==> !s.inHook && !s.initialized && !env.symbolsResolve
    ensures r.Returned? ==> r.ptr == p
    ensures r.Returned? && !s.inHook ==>
      && !r.shim.inHook
      && r.shim.initialized
      && r.shim.hookDb == (if s.initialized then s.hookDb else env.dbOpens)
    ensures r.Returned? && !s.inHook && r.shim.hookDb && p != 0 ==>
      Appended(s.ledger, r.shim.ledger, p, CInt(size), env.pid, now)
    ensures r.Returned? && !(r.shim.hookDb && p != 0) ==> r.shim.ledger == s.ledger
  {
    if s.inHook then Returned(s, p)
    else
      match InitDbOnce(s.(inHook := true), env)
      case Exited => MallocExited
      case Running(s1) =>
        if s1.hookDb && p != 0 then
          InsertAppends(s1.ledger, p, CInt(size), env.pid, now);
          var row := NewRecord(s1.ledger, p, CInt(size), env.pid, now);
          Returned(s1.(ledger := s1.ledger + [row], inHook := false), p)
        else
          Returned(s1.(inHook := false), p)
  }

  /** What a call to the interposed `free` leaves behind, and the pointer it hands to `real_free`. */
  datatype FreeResult = FreeResult(shim: Shim, released: nat)

  /**
   * The interposed `free(ptr)` at clock reading `now`. Inside the hook it
   * only calls `real_free`; otherwise, with the store open and a non-NULL
   * pointer, it first marks the pointer's live rows as freed.
   */
  function Free(s: Shim, ptr: nat, now: nat): (r: FreeResult)
    ensures r.released == ptr
    ensures s.inHook ==> r.shim == s
    ensures !s.inHook ==> !r.shim.inHook && r.shim.hookDb == s.hookDb && r.shim.initialized == s.initialized
    ensures !s.inHook && s.hookDb && ptr != 0 ==> FreeUpdate(s.ledger, r.shim.ledger, ptr, now)
    ensures !s.hookDb || ptr == 0 ==> r.shim.ledger == s.ledger
  {
    if s.inHook then FreeResult(s, ptr)
    else
      var s1 := s.(inHook := true);
      var s2 := if s1.hookDb && ptr != 0 then s1.(ledger := MarkFreed(s1.ledger, ptr, now)) else s1;
      FreeResult(s2.(inHook := false), ptr)
  }

  /** `cleanup_hook`, the destructor run at process exit: it closes the store and forgets the handle. */
  function Cleanup(s: Shim): (r: Shim)
    ensures !r.hookDb
    ensures r.ledger == s.ledger && r.inHook == s.inHook && r.initialized == s.initialized
  {
    s.(hookDb := false)
  }

  /** `init_db_once` is idempotent: a second call after a first that returned changes nothing. */
  lemma InitDbOnceIdempotent(s: Shim, env: Platform)
    requires InitDbOnce(s, env).Running?
    ensures InitDbOnce(InitDbOnce(s, env).shim, env) == InitDbOnce(s, env)
  {
  }
}

=== FILE: memory_server.dfy ===
/**
 * The bookkeeping of the demo driver memory_server.c: the parallel arrays
 * `ptrs` and `sizes` whose first `active_allocs` slots hold the blocks the
 * driver still owns, the draws from `rand()` that pick sizes, operation
 * counts and victims, and one pass of the inner loop.
 *
 * `rand()` values are inputs in `[0, RAND_MAX]`; the pointer `malloc`
 * returns is an input too. Printing, timestamps, `sleep` and signals are
 * not modelled.
 */
module Server {
  import opened Wrappers

  /** Capacity of `ptrs` and `sizes`. */
  const MAX_PTRS: nat := 1000

  /** glibc's `RAND_MAX`. */
  const RAND_MAX: nat := 0x7fff_ffff

  /** A value `rand()` can return. */
  type Draw = r: nat | r <= RAND_MAX

  /** `random_size`: an allocation size between 64 bytes and 2 KiB. */
  function RandomSize(r: Draw): (n: nat)
    ensures 64 <= n <= 2048
  {
    r % 1985 + 64
  }

  /** Every size in the range is produced by some draw. */
  lemma RandomSizeCoversRange(n: nat)
    requires 64 <= n <= 2048
    ensures exists r: Draw :: RandomSize(r) == n
  {
    assert RandomSize(n - 64) == n;
  }

  /** `num_ops`: the number of operations in one cycle. */
  function NumOps(r: Draw): (n: nat)
    ensures 3 <= n <= 7
  {
    r % 5 + 3
  }

  /** Every count from 3 to 7 is produced by some draw. */
  lemma NumOpsCoversRange(n: nat)
    requires 3 <= n <= 7
    ensures exists r: Draw :: NumOps(r) == n
  {
    assert NumOps(n - 3) == n;
  }

  /** `ptrs`, `sizes` and `active_allocs`. */
  datatype Tracked = Tracked(ptrs: seq<nat>, sizes: seq<nat>, active: nat)

  /** Both arrays have `MAX_PTRS` slots and the count stays within them. */
  predicate Valid(b: Tracked) {
    |b.ptrs| == MAX_PTRS && |b.sizes| == MAX_PTRS && b.active <= MAX_PTRS
  }

  /** The slots in use hold non-NULL pointers. */
  predicate NonNull(b: Tracked)
    requires Valid(b)
  {
    forall i :: 0 <= i < b.active ==> b.ptrs[i] != 0
  }

  /** The slots in use hold pairwise distinct pointers. */
  predicate Distinct(b: Tracked)
    requires Valid(b)
  {
    forall i, j :: 0 <= i < j < b.active ==> b.ptrs[i] != b.ptrs[j]
  }

  /** Whether `p` sits in one of the slots in use. */
  predicate Holds(b: Tracked, p: nat)
    requires Valid(b)
  {
    exists i :: 0 <= i < b.active && b.ptrs[i] == p
  }

  /** The `(ptr, size)` pairs of the slots in use, slot by slot. */
  function Pairs(b: Tracked): seq<(nat, nat)>
    requires Valid(b)
  {
    seq(b.active, i requires 0 <= i < b.active => (b.ptrs[i], b.sizes[i]))
  }

  /** The zero-initialised static arrays at program start. */
  function Initial(): (b: Tracked)
    ensures Valid(b) && NonNull(b) && Distinct(b) && Pairs(b) == []
  {
    Tracked(seq(MAX_PTRS, _ => 0), seq(MAX_PTRS, _ => 0), 0)
  }

  /**
   * Lines 57-59: the non-NULL result `p` of `malloc(sz)` is stored with its
   * size in slot `active_allocs`, which then grows by one, and no earlier
   * slot changes. The store needs `active_allocs < MAX_PTRS`, which
   * memory_server.c never checks.
   */
  function Append(b: Tracked, p: nat, sz: nat): (b': Tracked)
    requires Valid(b) && NonNull(b)
    requires p != 0
    requires b.active < MAX_PTRS
    ensures Valid(b') && NonNull(b')
    ensures b'.active == b.active + 1 && b'.ptrs[b.active] == p && b'.sizes[b.active] == sz
    ensures forall i :: 0 <= i < b.active ==> b'.ptrs[i] == b.ptrs[i] && b'.sizes[i] == b.sizes[i]
    ensures multiset(Pairs(b')) == multiset(Pairs(b)) + multiset{(p, sz)}
    ensures Distinct(b) && !Holds(b, p) ==> Distinct(b')
  {
    var b' := Tracked(b.ptrs[b.active := p], b.sizes[b.active := sz], b.active + 1);
    assert Pairs(b') == Pairs(b) + [(p, sz)];
    assert Distinct(b) && !Holds(b, p) ==> Distinct(b') by {
      if Distinct(b) && !Holds(b, p) {
        forall i, j | 0 <= i < j < b'.active
          ensures b'.ptrs[i] != b'.ptrs[j]
        {
          if j == b.active {
            assert b'.ptrs[i] == b.ptrs[i];
          }
        }
      }
    }
    b'
  }

  /** The outcome of the store at line 57 as written: the updated arrays, or a write past their end. */
  datatype Store = Stored(b: Tracked) | OutOfBounds

  /** Lines 56-59 as written: a non-NULL result is stored whether or not a slot is left. */
  function AllocAsWritten(b: Tracked, p: nat, sz: nat): (r: Store)
    requires Valid(b) && NonNull(b)
    ensures r.OutOfBounds? <==> p != 0 && b.active == MAX_PTRS
    ensures r.Stored? ==> Valid(r.b) && NonNull(r.b)
    ensures r.Stored? ==> multiset(Pairs(r.b)) == multiset(Pairs(b)) + (if p != 0 then multiset{(p, sz)} else multiset{})
  {
    if p == 0 then Stored(b)
    else if b.active < MAX_PTRS then Stored(Append(b, p, sz))
    else OutOfBounds
  }

  /** A run of allocations with no frees in between, through the unguarded store. */
  function AllocAllAsWritten(b: Tracked, allocs: seq<(nat, nat)>): (r: Store)
    requires Valid(b) && NonNull(b)
    ensures r.Stored? ==> Valid(r.b) && NonNull(r.b)
    decreases |allocs|
  {
    if |allocs| == 0 then Stored(b)
    else
      match AllocAsWritten(b, allocs[0].0, allocs[0].1)
      case OutOfBounds => OutOfBounds
      case Stored(b1) => AllocAllAsWritten(b1, allocs[1..])
  }

  /** Each non-NULL allocation that still fits takes one more slot. */
  lemma {:induction false} AllocAllFills(b: Tracked, allocs: seq<(nat, nat)>)
    requires Valid(b) && NonNull(b)
    requires forall k :: 0 <= k < |allocs| ==> allocs[k].0 != 0
    requires b.active + |allocs| <= MAX_PTRS
    ensures AllocAllAsWritten(b, allocs).Stored?
    ensures AllocAllAsWritten(b, allocs).b.active == b.active + |allocs|
    decreases |allocs|
  {
    if |allocs| > 0 {
      var r := AllocAsWritten(b, allocs[0].0, allocs[0].1);
      assert r == Stored(Append(b, allocs[0].0, allocs[0].1));
      AllocAllFills(r.b, allocs[1..]);
    }
  }

  /**
   * The overflow at line 57: after `MAX_PTRS` successful allocations without
   * a free, the next non-NULL allocation writes past the end of `ptrs` and
   * `sizes`.
   */
  lemma ThousandAllocationsOverflow(allocs: seq<(nat, nat)>, p: nat, sz: nat)
    requires |allocs| == MAX_PTRS
    requires forall k :: 0 <= k < |allocs| ==> allocs[k].0 != 0
    requires p != 0
    ensures AllocAllAsWritten(Initial(), allocs).Stored?
    ensures AllocAsWritten(AllocAllAsWritten(Initial(), allocs).b, p, sz) == OutOfBounds
  {
    AllocAllFills(Initial(), allocs);
  }

  /**
   * Lines 56-59 with the store guarded by `active_allocs < MAX_PTRS`: a
   * non-NULL result is recorded while a slot is left and otherwise stays
   * untracked, so the arrays are never overrun.
   */
  method RecordAlloc(b: Tracked, p: nat, sz: nat) returns (b': Tracked, stored: bool)
    requires Valid(b) && NonNull(b)
    ensures Valid(b') && NonNull(b')
    ensures stored <==> p != 0 && b.active < MAX_PTRS
    ensures !stored ==> b' == b
    ensures stored ==> b'.active == b.active + 1 && b'.ptrs[b.active] == p && b'.sizes[b.active] == sz
    ensures forall i :: 0 <= i < b.active ==> b'.ptrs[i] == b.ptrs[i] && b'.sizes[i] == b.sizes[i]
    ensures multiset(Pairs(b')) == multiset(Pairs(b)) + (if stored then multiset{(p, sz)} else multiset{})
    ensures Distinct(b) && !Holds(b, p) ==> Distinct(b')
  {
    if p != 0 && b.active < MAX_PTRS {
      b', stored := Append(b, p, sz), true;
    } else {
      b', stored := b, false;
    }
  }

  /** Replacing element `idx` by the last one and dropping the last removes exactly one copy of `s[idx]`. */
  lemma SwapRemoveMultiset<T>(s: seq<T>, idx: nat)
    requires idx < |s|
    ensures multiset(s[idx := s[|s| - 1]][..|s| - 1]) == multiset(s) - multiset{s[idx]}
  {
    var n := |s|;
    var kept := s[idx := s[n - 1]][..n - 1];
    if idx == n - 1 {
      assert kept == s[..n - 1];
      assert s == s[..n - 1] + [s[n - 1]];
    } else {
      var a, b := s[..idx], s[idx + 1..n - 1];
      assert kept == a + [s[n - 1]] + b;
      assert s == a + [s[idx]] + b + [s[n - 1]];
      assert multiset(s) == multiset(a) + multiset{s[idx]} + multiset(b) + multiset{s[n - 1]};
    }
  }

  /** Moving the last pointer into slot `idx` keeps the pointers distinct and drops the one that was there. */
  lemma SwapRemoveKeepsDistinct(b: Tracked, idx: nat, b': Tracked)
    requires Valid(b) && Distinct(b)
    requires idx < b.active
    requires b' == Tracked(b.ptrs[idx := b.ptrs[b.active - 1]], b.sizes[idx := b.sizes[b.active - 1]], b.active - 1)
    ensures Valid(b') && Distinct(b')
    ensures !Holds(b', b.ptrs[idx])
  {
    var last := b.active - 1;
    forall i, j | 0 <= i < j < b'.active
      ensures b'.ptrs[i] != b'.ptrs[j]
    {
      if i == idx {
        assert b'.ptrs[j] == b.ptrs[j];
      } else if j == idx {
        assert b'.ptrs[i] == b.ptrs[i];
      }
    }
    forall i | 0 <= i < b'.active
      ensures b'.ptrs[i] != b.ptrs[idx]
    {
      if i == idx {
        assert b'.ptrs[i] == b.ptrs[last];
      } else {
        assert b'.ptrs[i] == b.ptrs[i];
      }
    }
  }

  /** Swap-remove on the arrays is swap-remove on their pairs. */
  lemma SwapRemovePairs(b: Tracked, idx: nat, b': Tracked)
    requires Valid(b) && NonNull(b)
    requires idx < b.active
    requires b' == Tracked(b.ptrs[idx := b.ptrs[b.active - 1]], b.sizes[idx := b.sizes[b.active - 1]], b.active - 1)
    ensures Valid(b') && NonNull(b')
    ensures multiset(Pairs(b')) == multiset(Pairs(b)) - multiset{(b.ptrs[idx], b.sizes[idx])}
  {
    var last := b.active - 1;
    var pairs := Pairs(b);
    assert Pairs(b') == pairs[idx := pairs[last]][..last];
    SwapRemoveMultiset(pairs, idx);
    assert pairs[idx] == (b.ptrs[idx], b.sizes[idx]);
  }

  /**
   * Lines 64-73: slot `idx` is chosen as `rand() % active_allocs`; a
   * non-NULL pointer there is handed to `free`, the last pair moves into the
   * slot, and `active_allocs` shrinks by one. Returns the pointer freed, if any.
   */
  method ReleaseSlot(b: Tracked, draw: Draw) returns (b': Tracked, freed: Option<nat>)
    requires Valid(b) && NonNull(b)
    requires b.active > 0
    ensures Valid(b') && NonNull(b')
    ensures Distinct(b) ==> Distinct(b')
    ensures var idx := draw % b.active;
      && freed == Some(b.ptrs[idx])
      && b'.active == b.active - 1
      && multiset(Pairs(b')) == multiset(Pairs(b)) - multiset{(b.ptrs[idx], b.sizes[idx])}
      && (idx < b'.active ==> b'.ptrs[idx] == b.ptrs[b.active - 1] && b'.sizes[idx] == b.sizes[b.active - 1])
      && (forall i :: 0 <= i < b'.active && i != idx ==> b'.ptrs[i] == b.ptrs[i] && b'.sizes[i] == b.sizes[i])
      && (Distinct(b) ==> !Holds(b', b.ptrs[idx]))
  {
    var idx := draw % b.active;
    var p := b.ptrs[idx];
    if p != 0 {
      freed := Some(p);
      var last := b.active - 1;
      b' := Tracked(b.ptrs[idx := b.ptrs[last]], b.sizes[idx := b.sizes[last]], last);
      SwapRemovePairs(b, idx, b');
      if Distinct(b) {
        SwapRemoveKeepsDistinct(b, idx, b');
      }
    } else {
      assert false;
      b', freed := b, None;
    }
  }

  /** The `rand()` draws of one operation, and what `malloc` returned if it was called. */
  datatype OpDraws = OpDraws(action: Draw, size: Draw, victim: Draw, result: nat)

  /** What one operation did to the driver's blocks. */
  datatype Effect =
    | Allocated(size: nat, result: nat, stored: bool)  // malloc(size) returned `result`; `stored` if it was tracked
    | Released(ptr: nat, size: nat)                    // free(ptr) of the block tracked with `size`
    | Idle                                             // the simulated-leak branch

  /** The pair an operation started tracking, if any. */
  function Gained(e: Effect): multiset<(nat, nat)> {
    if e.Allocated? && e.stored then multiset{(e.result, e.size)} else multiset{}
  }

  /** The pair an operation stopped tracking, if any. */
  function Lost(e: Effect): multiset<(nat, nat)> {
    if e.Released? then multiset{(e.ptr, e.size)} else multiset{}
  }

  function GainedAll(es: seq<Effect>): multiset<(nat, nat)> {
    if |es| == 0 then multiset{} else GainedAll(es[..|es| - 1]) + Gained(es[|es| - 1])
  }

  function LostAll(es: seq<Effect>): multiset<(nat, nat)> {
    if |es| == 0 then multiset{} else LostAll(es[..|es| - 1]) + Lost(es[|es| - 1])
  }

  lemma AppendEffect(es: seq<Effect>, e: Effect)
    ensures GainedAll(es + [e]) == GainedAll(es) + Gained(e)
    ensures LostAll(es + [e]) == LostAll(es) + Lost(e)
  {
    assert (es + [e])[..|es|] == es;
  }

  /** Conservation composes: two balanced steps make a balanced run. */
  lemma Conserve<T>(start: multiset<T>, mid: multiset<T>, end: multiset<T>,
                    gained: multiset<T>, lost: multiset<T>, g: multiset<T>, l: multiset<T>)
    requires mid + lost == start + gained
    requires end + l == mid + g
    ensures end + (lost + l) == start + (gained + g)
  {
    calc {
      end + (lost + l);
      (end + l) + lost;
      (mid + g) + lost;
      (mid + lost) + g;
      (start + gained) + g;
    }
  }

  /** The first `n` slots of `b'` hold the same pairs as those of `b`. */
  predicate SlotsKept(b: Tracked, b': Tracked, n: nat) {
    && n <= |b.ptrs| && n <= |b.sizes| && n <= |b'.ptrs| && n <= |b'.sizes|
    && forall i :: 0 <= i < n ==> b'.ptrs[i] == b.ptrs[i] && b'.sizes[i] == b.sizes[i]
  }

  /**
   * `b'` is `b` after the swap-remove of slot `idx` (lines 70-72): the last
   * pair in use moves into slot `idx`, the count drops by one, and every
   * other slot in use keeps its pair.
   */
  predicate SwapRemovedAt(b: Tracked, idx: nat, b': Tracked) {
    && idx < b.active && b.active <= |b.ptrs| && b.active <= |b.sizes|
    && b'.active == b.active - 1 && b'.active <= |b'.ptrs| && b'.active <= |b'.sizes|
    && (idx < b'.active ==> b'.ptrs[idx] == b.ptrs[b.active - 1] && b'.sizes[idx] == b.sizes[b.active - 1])
    && forall i :: 0 <= i < b'.active && i != idx ==> b'.ptrs[i] == b.ptrs[i] && b'.sizes[i] == b.sizes[i]
  }

  /**
   * One pass of the inner loop (lines 51-77): `rand() % 3` picks allocation,
   * free, or the leak branch; a free with nothing tracked falls through to
   * the leak branch. Allocations store through the guarded `RecordAlloc`.
   */
  method Operation(b: Tracked, op: OpDraws) returns (b': Tracked, e: Effect)
    requires Valid(b) && NonNull(b)
    ensures Valid(b') && NonNull(b')
    ensures multiset(Pairs(b')) + Lost(e) == multiset(Pairs(b)) + Gained(e)
    ensures op.action % 3 == 0 ==> e.Allocated? && e.size == RandomSize(op.size) && e.result == op.result
    ensures op.action % 3 == 0 ==> (e.stored <==> op.result != 0 && b.active < MAX_PTRS)
    ensures op.action % 3 == 0 && e.stored ==>
      b'.active == b.active + 1 && b'.ptrs[b.active] == op.result && b'.sizes[b.active] == e.size
    ensures op.action % 3 == 0 && e.stored ==> SlotsKept(b, b', b.active)
    ensures op.action % 3 == 0 && !e.stored ==> b' == b
    ensures op.action % 3 == 1 && b.active > 0 ==>
      && e.Released? && b'.active == b.active - 1
      && e.ptr == b.ptrs[op.victim % b.active] && e.size == b.sizes[op.victim % b.active]
    ensures op.action % 3 == 1 && b.active > 0 ==> SwapRemovedAt(b, op.victim % b.active, b')
    ensures op.action % 3 == 2 || (op.action % 3 == 1 && b.active == 0) ==> e == Idle && b' == b
    ensures Distinct(b) && (op.action % 3 == 0 ==> !Holds(b, op.result)) ==> Distinct(b')
    ensures Step(b, op, e, b')
  {
    var action := op.action % 3;
    if action == 0 {
      b', e := AllocOp(b, op);
    } else if action == 1 && b.active > 0 {
      b', e := FreeOp(b, op);
    } else {
      b', e := b, Idle;
    }
  }

  /** The allocation branch of an operation (lines 53-62). */
  method AllocOp(b: Tracked, op: OpDraws) returns (b': Tracked, e: Effect)
    requires Valid(b) && NonNull(b)
    requires op.action % 3 == 0
    ensures Valid(b') && NonNull(b')
    ensures multiset(Pairs(b')) + Lost(e) == multiset(Pairs(b)) + Gained(e)
    ensures e.Allocated? && e.size == RandomSize(op.size) && e.result == op.result
    ensures e.stored <==> op.result != 0 && b.active < MAX_PTRS
    ensures e.stored ==> b'.active == b.active + 1 && b'.ptrs[b.active] == op.result && b'.sizes[b.active] == e.size
    ensures e.stored ==> SlotsKept(b, b', b.active)
    ensures !e.stored ==> b' == b
    ensures Distinct(b) && !Holds(b, op.result) ==> Distinct(b')
    ensures Step(b, op, e, b')
  {
    var sz := RandomSize(op.size);
    var stored;
    b', stored := RecordAlloc(b, op.result, sz);
    assert stored ==> SlotsKept(b, b', b.active);
    e := Allocated(sz, op.result, stored);
  }

  /** The free branch of an operation with blocks tracked (lines 63-73). */
  method FreeOp(b: Tracked, op: OpDraws) returns (b': Tracked, e: Effect)
    requires Valid(b) && NonNull(b)
    requires op.action % 3 == 1 && b.active > 0
    ensures Valid(b') && NonNull(b')
    ensures multiset(Pairs(b')) + Lost(e) == multiset(Pairs(b)) + Gained(e)
    ensures e.Released? && b'.active == b.active - 1
    ensures e.ptr == b.ptrs[op.victim % b.active] && e.size == b.sizes[op.victim % b.active]
    ensures SwapRemovedAt(b, op.victim % b.active, b')
    ensures Distinct(b) ==> Distinct(b')
    ensures Step(b, op, e, b')
  {
    var idx := op.victim % b.active;
    var freed;
    b', freed := ReleaseSlot(b, op.victim);
    assert SwapRemovedAt(b, idx, b');
    e := Released(freed.value, b.sizes[idx]);
    assert Pairs(b)[idx] == (b.ptrs[idx], b.sizes[idx]);
  }

  /**
   * One operation drawn as `op` takes the arrays from `b` to `b'` with
   * effect `e`: action 0 allocates `random_size()` bytes, gets `op.result`
   * and stores it in slot `active_allocs` when it is non-NULL and a slot is
   * left, keeping the slots before it; action 1 with blocks tracked frees
   * the one in slot `rand() % active_allocs` and swap-removes it; otherwise
   * nothing changes.
   */
  predicate Step(b: Tracked, op: OpDraws, e: Effect, b': Tracked) {
    && Valid(b) && Valid(b')
    && match op.action % 3
       case 0 =>
         && e.Allocated? && e.size == RandomSize(op.size) && e.result == op.result
         && (e.stored <==> op.result != 0 && b.active < MAX_PTRS)
         && (e.stored ==> b'.active == b.active + 1 && b'.ptrs[b.active] == op.result && b'.sizes[b.active] == e.size)
         && (e.stored ==> SlotsKept(b, b', b.active))
         && (!e.stored ==> b' == b)
       case 1 =>
         if b.active > 0 then
           && e.Released? && SwapRemovedAt(b, op.victim % b.active, b')
           && e.ptr == b.ptrs[op.victim % b.active] && e.size == b.sizes[op.victim % b.active]
         else e == Idle && b' == b
       case _ => e == Idle && b' == b
  }

  /** Operation `k` takes `states[k]` to `states[k + 1]`, for each of the first `n` operations. */
  predicate Steps(states: seq<Tracked>, ops: seq<OpDraws>, effects: seq<Effect>, n: nat) {
    && n < |states| && n <= |ops| && n <= |effects|
    && forall k :: 0 <= k < n ==> Step(states[k], ops[k], effects[k], states[k + 1])
  }

  /** A run of steps extended by one more step is still a run of steps. */
  lemma StepsExtend(states: seq<Tracked>, ops: seq<OpDraws>, effects: seq<Effect>, next: Tracked, e: Effect)
    requires |effects| < |ops| && |states| == |effects| + 1
    requires Steps(states, ops, effects, |effects|)
    requires Step(states[|effects|], ops[|effects|], e, next)
    ensures Steps(states + [next], ops, effects + [e], |effects| + 1)
  {
    var i := |effects|;
    forall k | 0 <= k < i + 1
      ensures Step((states + [next])[k], ops[k], (effects + [e])[k], (states + [next])[k + 1])
    {
      if k < i {
        assert (states + [next])[k] == states[k] && (states + [next])[k + 1] == states[k + 1];
        assert (effects + [e])[k] == effects[k];
      }
    }
  }

  /**
   * One cycle of the driver (lines 49-78): `num_ops` operations in a row,
   * operation `k` taking `states[k]` to `states[k + 1]`.
   * Every pair tracked at the end was tracked at the start or stored during
   * the cycle, and every pair tracked at the start or stored is still
   * tracked or was released: the pairs are conserved.
   */
  method Cycle(b: Tracked, count: Draw, ops: seq<OpDraws>) returns (b': Tracked, effects: seq<Effect>, states: seq<Tracked>)
    requires Valid(b) && NonNull(b)
    requires |ops| == NumOps(count)
    ensures Valid(b') && NonNull(b')
    ensures |effects| == |ops| && 3 <= |effects| <= 7
    ensures |states| == |ops| + 1 && states[0] == b && states[|ops|] == b'
    ensures Steps(states, ops, effects, |ops|)
    ensures multiset(Pairs(b')) + LostAll(effects) == multiset(Pairs(b)) + GainedAll(effects)
  {
    b', effects, states := b, [], [b];
    var i := 0;
    while i < |ops|
      invariant 0 <= i <= |ops|
      invariant Valid(b') && NonNull(b')
      invariant |effects| == i
      invariant |states| == i + 1 && states[0] == b && states[i] == b'
      invariant Steps(states, ops, effects, i)
      invariant multiset(Pairs(b')) + LostAll(effects) == multiset(Pairs(b)) + GainedAll(effects)
    {
      var next, e := Operation(b', ops[i]);
      AppendEffect(effects, e);
      Conserve(multiset(Pairs(b)), multiset(Pairs(b')), multiset(Pairs(next)),
               GainedAll(effects), LostAll(effects), Gained(e), Lost(e));
      StepsExtend(states, ops, effects, next, e);
      b', effects, states := next, effects + [e], states + [next];
      i := i + 1;
    }
  }
}

=== FILE: ranking.dfy ===
/**
 * Ordering by a numeric key, largest first, as Python's
 * `sorted(..., key=k, reverse=True)` and SQL's `ORDER BY k DESC` do it,
 * and taking the first `k` of the result (`[:k]`, `LIMIT k`).
 */
module Ranking {

  /** Keys never grow from left to right. */
  predicate NonIncreasing<T>(s: seq<T>, key: T -> int) {
    forall i, j :: 0 <= i < j < |s| ==> key(s[i]) >= key(s[j])
  }

  /**
   * Puts `x` in front of the first element whose key is not larger, so that
   * it stays ahead of the equal-keyed elements that followed it in the input
   * (the stability `sorted` promises).
   */
  function Insert<T>(x: T, s: seq<T>, key: T -> int): (r: seq<T>)
    requires NonIncreasing(s, key)
    ensures |r| == |s| + 1
    ensures r[0] == x || (|s| > 0 && r[0] == s[0])
    ensures NonIncreasing(r, key)
    ensures multiset(r) == multiset(s) + multiset{x}
  {
    if |s| == 0 then [x]
    else if key(s[0]) <= key(x) then [x] + s
    else
      var rest := Insert(x, s[1..], key);
      assert s == [s[0]] + s[1..];
      assert key(s[0]) >= key(rest[0]);
      [s[0]] + rest
  }

  /** The elements of `s` reordered by key, largest first. */
  function SortDesc<T>(s: seq<T>, key: T -> int): (r: seq<T>)
    ensures NonIncreasing(r, key)
    ensures multiset(r) == multiset(s)
    ensures |r| == |s|
  {
    if |s| == 0 then []
    else
      assert s == [s[0]] + s[1..];
      Insert(s[0], SortDesc(s[1..], key), key)
  }

  /**
   * The `k` elements with the largest keys, largest first: no more than
   * `k`, all drawn from `s`, and none of the elements left out has a key
   * above any that was kept.
   */
  function TopK<T>(s: seq<T>, key: T -> int, k: nat): (r: seq<T>)
    ensures |r| == if |s| < k then |s| else k
    ensures NonIncreasing(r, key)
    ensures multiset(r) <= multiset(s)
    ensures forall x, i :: x in multiset(s) - multiset(r) && 0 <= i < |r| ==> key(x) <= key(r[i])
  {
    var sorted := SortDesc(s, key);
    var n := if |s| < k then |s| else k;
    TakeDominates(sorted, key, n);
    sorted[..n]
  }

  /** In a non-increasing sequence, the prefix of length `n` dominates the rest. */
  lemma TakeDominates<T>(s: seq<T>, key: T -> int, n: nat)
    requires NonIncreasing(s, key)
    requires n <= |s|
    ensures multiset(s[..n]) <= multiset(s)
    ensures forall x, i :: x in multiset(s) - multiset(s[..n]) && 0 <= i < n ==> key(x) <= key(s[i])
  {
    assert s == s[..n] + s[n..];
    assert multiset(s) - multiset(s[..n]) == multiset(s[n..]);
    forall x, i | x in multiset(s) - multiset(s[..n]) && 0 <= i < n
      ensures key(x) <= key(s[i])
    {
      assert x in s[n..];
      var j :| 0 <= j < |s[n..]| && s[n..][j] == x;
      assert s[n + j] == x;
    }
  }
}

=== FILE: wrappers.dfy ===
/** Optional values: a SQL NULL, a Python `None`, a store handle that is not open. */
module Wrappers {

  datatype Option<+T> = None | Some(value: T) {

    /** The wrapped value, or `default` when there is none (SQL `IFNULL`). */
    function GetOr(default: T): T {
      match this
      case Some(v) => v
      case None => default
    }
  }
}
